=== FILE: README.md ===
# Door-swipe cleaning pipeline, modelled in Dafny

The dashboard reads a door-access export: one row per badge swipe, with a person's
name, `CDSID`, person type, access date, door and transaction type. It turns that
export into an anonymised table with one row per person per day, filters it, and
counts swipes per day. This project models that data path as pure functions over
immutable tables and proves what each step guarantees.

- `wrappers.dfy`: `Option` and `Result`. A Python exception (`KeyError`, a
  `strptime` `ValueError`) becomes `Failure(Error)`.
- `order.dfy`, `strings.dfy`: insertion sort over any strict total order, and Python's
  code-point lexicographic order on strings, which `sorted` and category codes use.
- `seqs.dfy`: boolean-mask filtering and `drop_duplicates` / `unique` on sequences.
- `dates.dfy`: proleptic Gregorian dates, day numbers, `weekday()` / `day_name()`,
  and strict `'%d/%m/%Y'` parsing with its rendering partner.
- `tables.dfy`: a positional table (`columns`, `rows` of cells). A cell is
  `Option<Value>`, and `None` stands for NaN. It provides the label lookup and
  column operations that pandas performs.
- `cleaning.dfy`: `clean_and_validate_df` and its six steps (`utils.py`).
- `filters.dfy`: the weekend, holiday and person-type filters, their composition in
  `filter_options`, and `remove_overlap_dates`.
- `summary.dfy`: `unique_swipes_per_day` (both variants) and `extract_variables`.
- `upload.dfy`: the extension dispatch of `upload_data`.

Some behaviours of the code shape what the model states:

- A missing required column is not rejected up front. The first upload has no
  baseline to compare against, so the missing column surfaces as a `KeyError` in
  `fix_dates`, `anonymize` or `count_one_swipe_per_day`. Here it is a `Failure`.
- `count_one_swipe_per_day` removes only exact duplicate rows. It does not key on
  (`anon_id`, date), so two rows for one person on one day survive when any other
  column differs. `Cleaning.OneEventPerPersonDay` states when "one event per person
  per day" does hold: the export's four remaining columns, and one person type per
  person and day.
- The holiday filter compares dates with `datetime.date` values. This works because
  `fix_dates` leaves `Access Date` holding calendar dates, so the model compares dates.
- `pd.to_datetime` with an explicit format reads the empty string and the spellings
  `NaT`, `nat`, `NAT`, `nan`, `NaN` and `NAN` as a missing date instead of failing.
  `dropna` runs before the dates are converted, so a cleaned table can still have a
  missing `Access Date` and `Day Of Week`. `Cleaning.Filled` states what does hold:
  no cell is missing outside those two columns.

## Model

| member | source | states |
|---|---|---|
| Cleaning.FixHeaders | utils.py:22-26 | Only `Person` and `Access` are renamed, to `Person Type` and `Access Date`. Every other name and every row stay unchanged, and neither old name survives. |
| Cleaning.FixHeadersIdempotent | utils.py:22-26 | Fixing headers twice gives the same table as fixing them once. |
| Cleaning.RemoveJunk | utils.py:104-108 | The result has no `Category Used` column and no missing cell. Its columns are the input's without `Category Used`, in their original order. The kept rows are exactly the complete projected rows, in order, so an all-junk table becomes an empty table and not an error. |
| Cleaning.SortedColumns | utils.py:134 | The sorted column names: ascending in code-point order and a permutation of the columns. |
| Cleaning.CompatibilityCheck | utils.py:131-144 | With no baseline it passes and returns the sorted names as the new baseline. A given baseline comes back unchanged. A sorted baseline passes exactly when the column multiset equals it, and an unsorted one never passes. |
| Cleaning.RequiredHeaders | utils.py:137 | The required names shown on a mismatch are the baseline minus `Last Name` and `First Name`, in baseline order. Every other name occurs as often as in the baseline, and those two not at all. |
| Cleaning.ToDate | utils.py:113 | A missing cell stays missing, and a NaT or NaN spelling becomes a missing date. Other text becomes the date it parses to, or fails with that text. A cell that already holds a date passes through when the date is valid and fails otherwise. A category code fails with `NotADate`. A produced date is valid, and the result is missing exactly for a missing cell or a NaT spelling. |
| Cleaning.ToDates | utils.py:113 | A column converts exactly when every cell converts, cell by cell. A failure is the failure of some cell. |
| Cleaning.FixDates | utils.py:111-116 | It fails when `Access Date` is absent or any value does not parse. On success the rows are dated, cells outside the two date columns are untouched, and no row is lost. A complete input leaves no gap outside the date columns. It leaves no gap at all only when no date is spelled as NaT or NaN. |
| Cleaning.FixDatesCells | utils.py:111-116 | Every row's `Access Date` is its own parsed date and its `Day Of Week` is that date's name. A date cell is missing exactly when the raw cell was missing or a NaT spelling, and other text holds the date it parses to. |
| Cleaning.CategoryCodes | utils.py:121 | Equal identifiers get equal codes and distinct ones distinct codes. The codes increase with the identifiers' order and cover exactly 0..k-1 for k distinct identifiers; a missing identifier gets -1. |
| Cleaning.Categories | utils.py:121 | The categories are the distinct present identifiers, strictly sorted. |
| Cleaning.Anonymize | utils.py:119-122 | It succeeds exactly when `CDSID` occurs once, every `CDSID` cell is text, and `Last Name`, `First Name` and `CDSID` are all present. Each row's `anon_id` is then the category code of its `CDSID`. The three identity columns are gone and the row count is unchanged. Every other cell is a cell of the same input row under the same label. |
| Cleaning.CountOneSwipePerDay | utils.py:125-128 | It succeeds exactly when both sub-day columns exist, and drops them. The result has no duplicate row, has the same row set as the projection, and keeps first-occurrence order. |
| Cleaning.CleanGated | utils.py:154-156 | After a passed gate it succeeds exactly when `fix_dates` succeeds, `anonymize` succeeds on the dated table, and both `Reader Description` and `Transaction Type` are present. The result is then a clean table that keeps every column not meant to be removed. A clean table has `Access Date`, `Day Of Week` and `anon_id`, no identity or sub-day column, no duplicate row and no gap outside the date columns, and each row's weekday name matches its date. |
| Cleaning.CleanGatedSucceeds | utils.py:154-156 | The same success condition, stated on the gated table alone: the dates parse, `CDSID` occurs once and holds only text, and the identity and sub-day columns are all present. |
| Cleaning.CleanGatedRows | utils.py:154-156 | Every output row is some gated row, with its parsed date, that date's weekday name and its category code; each other cell comes from that gated row under the same label. Every gated row, so transformed, is an output row. |
| Cleaning.CleanAndValidate | utils.py:147-159 | A given baseline is returned unchanged. An unsorted baseline gives no table. With a sorted baseline, the result is "no table" exactly when the gated columns differ from it. With no baseline, the new baseline is the sorted gated columns, without `Category Used`. When the gate passes, the call succeeds exactly when the cleaning steps do. Every returned table is clean. |
| Cleaning.CleanAndValidateRows | utils.py:147-159 | A returned table's rows are exactly the gated export's rows as cleaned: each carries a gated row's parsed date, weekday name and code, and every gated row appears so. |
| Cleaning.OneEventPerPersonDay | utils.py:125-128 | In a clean table with the export's columns, where each person has one type per day, two distinct rows differ in `anon_id` or in date. |
| Cleaning.SameKeySameRow | utils.py:125-128 | With the export's columns, two dated rows that agree on person, date and type are identical, because the weekday follows from the date. |
| Dates.ParseDate | utils.py:6 | A successful `'%d/%m/%Y'` parse yields a valid date, from text of 8 to 10 characters. |
| Dates.ParseSpellings | utils.py:6 | A text parses to a date exactly when the date is valid and the text is one of its spellings: a day of one or two digits (or space and digit), a month of one or two digits, and a four-digit year, joined by `/`. |
| Dates.ParseFormat | utils.py:6 | Rendering a valid date as `dd/mm/yyyy` and parsing it back returns the same date. |
| Dates.BeforeIffOrdinalLess | utils.py:51 | Calendar order on dates agrees with the order of day numbers, in both directions. |
| Dates.NextDayStep | utils.py:7 | The next calendar day is one day number later and one weekday later, so weekday names cycle Monday to Sunday. |
| Dates.KnownWeekdays | utils.py:7 | Fixed points: 1 January of year 1 is a Monday, and the holiday window runs from a Saturday to a Friday. |
| Filters.RemoveWeekendData | utils.py:29-37 | No table passes through. Otherwise it succeeds exactly when `Day Of Week` exists, and keeps exactly the rows not named Saturday or Sunday, in order. |
| Filters.WeekendByName | utils.py:32-33 | A row's weekday name is Saturday or Sunday exactly when its date falls on a weekend. |
| Filters.RemoveHolidayData | utils.py:47-55 | No table passes through. Otherwise it keeps exactly the rows whose date is missing or outside 17 December 2022 to 6 January 2023 inclusive, in order. |
| Filters.WeekendStep | utils.py:39-44 | With no table, nothing happens. With a table, it fails exactly when the weekend filter is on and `Day Of Week` does not occur once. |
| Filters.HolidayStep | utils.py:58-64 | With no table, nothing happens. With a table, it fails exactly when the holiday filter is on and the `Access Date` column is missing, repeated, or holds a cell that is neither a date nor missing. |
| Filters.HolidayWindow | utils.py:49 | A date is in the window exactly when it is 17-31 December 2022 or 1-6 January 2023. |
| Filters.DropTypes | utils.py:69-72 | When every listed type is selected, nothing changes. Otherwise the rows kept are exactly those whose type is not deselected. |
| Filters.IncludePersonTypeData | utils.py:67-73 | No table passes through. Otherwise it keeps exactly the rows whose type is not listed-but-unselected, in order. |
| Filters.RemoveOverlapDates | main.py:220-225 | It keeps exactly the rows dated strictly after the filter date and the rows without a date, in order, with the columns unchanged. |
| Filters.RemoveOverlapIdempotent | main.py:220-225 | Removing overlap dates twice with the same date equals removing them once. |
| Filters.FilterOne | utils.py:87-102 | No table passes through. With no filter switched on and nothing excluded, the table is returned as is. A weekend filter without `Day Of Week` fails. A successful result keeps the columns. |
| Filters.FilterOneSucceeds | utils.py:87-102 | On a table, it succeeds exactly when each switched-on filter finds what it reads. The weekend filter needs `Day Of Week` once. The holiday filter needs `Access Date` once, holding a date or nothing in every row the weekend filter keeps. The person-type filter needs `Person Type` once when some listed type is deselected. |
| Filters.FilterOneKeepsWanted | utils.py:87-102 | After the three filters, a row remains exactly when it was in the table and every switched-on filter wants it. |
| Filters.FilterOptions | utils.py:87-102 | Filtering the baseline and the comparison table together succeeds exactly when each filters on its own, with the same results. |
| Summary.GroupSizes | main.py:11 | One entry per distinct key, in ascending order. Each count is the key's multiplicity and at least 1. |
| Summary.GroupSizesTotal | main.py:11 | The counts of a grouping sum to the number of grouped values. |
| Summary.UniqueSwipesPerDay | main.py:7-11 | It succeeds exactly when `Access Date` occurs once and every cell in it is a date or missing. Each present date then appears once, in date order, with the number of rows on that date. |
| Summary.SwipesCoverRows | main.py:7-11 | The per-day counts sum to the number of rows whose `Access Date` is present. On a table without missing cells, that is every row. |
| Summary.UniqueSwipesCombined | main.py:8-9 | It succeeds exactly when the date column reads as dates, `Source` occurs once, and every `Source` cell is text. There is one entry per (date, source) pair that some row carries, ordered by date and then source. Each count is the number of rows with that pair. |
| Summary.Earliest | main.py:147 | The earliest present date: it is attained, it is no later than any present date, and it is missing only when all dates are. |
| Summary.Latest | main.py:148 | The latest present date: it is attained, it is no earlier than any present date, and it is missing only when all dates are. |
| Summary.ExtractVariables | main.py:146-149 | A date column mixing present and missing dates fails, as `min()` then compares a date with a float. Otherwise the min and max dates are attained and bracket every present date, and they are missing when no date is present. The person types are the column's distinct values, each once. |
| Summary.RangeBracketsCounts | main.py:146-149 | Every day counted by `unique_swipes_per_day` lies between the extracted min and max dates. |
| Upload.Extension | main.py:205 | The extension is the text after the last `.`, or the whole name when there is no dot. |
| Upload.ExtensionAfterLastDot | main.py:205 | A dot-free extension appended after a dot is read back exactly, whatever the stem. |
| Upload.Classify | main.py:207-214 | A name is CSV exactly when its extension is `csv`, Excel exactly when it is `xlsx`, and rejected otherwise. |
| Upload.ClassifyAccepted | main.py:207-211 | Any stem followed by `.csv` or `.xlsx` is accepted as that kind. |
| Upload.RejectedExtension | main.py:212-214 | Any other dot-free extension, such as `xls` or `CSV`, is rejected. |
| Upload.UploadData | main.py:202-217 | No file or a rejected extension gives no table. Otherwise the upload cleans the file: it fails exactly when cleaning fails, and it returns the table that `clean_and_validate_df` returned. Any table it returns is clean, and against a sorted baseline it returns no table exactly when the columns differ. |

## Left out

- File reading (`pd.read_csv`, `pd.read_excel`, `load_baseline`) and the `print` /
  `st.code` diagnostics: a file is given as an already-read table.
- Streamlit widgets: the radio buttons and multiselect of `filter_options` become
  boolean and list parameters. Titles, columns and tabs are presentation only.
- Altair chart construction and the rolling mean: a charting library and floating point.
- `comparison_tab` and the comparison branch of `boxplot_by_day`. Both refer to names
  that are not defined where they are used. The `Source` column they set is modelled
  only as input to `Summary.UniqueSwipesCombined`.
- The debug perturbation in `comparison_tab` (`np.random`, `relativedelta`): it is
  random test scaffolding.
- pandas index labels, in-place mutation and categorical dtype machinery. Rows are an
  ordered sequence, and `drop(index)` is modelled as removing exactly the selected rows.
- Upload.UploadData: the baseline returned by `clean_and_validate_df` is discarded
  there, as in the code, and the model does not thread it further.
- Dates.ParseDate: only ASCII digits are accepted, and years run from 1 to 9999, as
  Python's `datetime` allows. pandas' narrower `Timestamp` range is not modelled.
- Summary.ExtractVariables: a missing person type is one distinct value, as with
  `unique()`. NaN's inequality to itself is not modelled. An empty or all-missing
  date column gives no min and max date, where pandas returns NaN; the model does
  not distinguish NaN from NaT there.
- Cleaning.Anonymize: a `CDSID` cell that is not text fails with `NotText`. pandas
  would code a mix of numbers and text with the numbers first, in numeric order, and
  then the texts, in text order; it uses order of appearance only when that sort
  raises. The export's `CDSID` values are text.
- Summary.UniqueSwipesPerDay: a text cell in `Access Date` fails, where pandas'
  `groupby` would sort a mix of dates and texts and go on. A table that went
  through `fix_dates` holds only dates or nothing there.
- Summary.ExtractVariables: a text cell in `Access Date` fails, where `min()` and
  `max()` of an all-text column return a text. A table that went through
  `fix_dates` holds only dates or nothing there.
- Summary.UniqueSwipesCombined: a `Source` value that is not text fails, where pandas
  would group mixed types.
- Error messages: a `KeyError` carries only the missing label, and nothing models the
  text of pandas' messages.

=== FILE: cleaning.dfy ===
/** The cleaning and validation pipeline `clean_and_validate_df` and its six steps:
    header fix, junk removal, schema gate, date parsing, anonymisation and
    one-swipe-per-day de-duplication. */
module Cleaning {
  import opened Wrappers
  import Seqs
  import Order
  import StringOrder
  import Dates
  import opened Tables

  const PersonType := "Person Type"
  const AccessDate := "Access Date"
  const CategoryUsed := "Category Used"
  const DayOfWeek := "Day Of Week"
  const CdsId := "CDSID"
  const AnonId := "anon_id"
  const IdentityColumns: seq<string> := ["Last Name", "First Name", "CDSID"]
  const SubDayColumns: seq<string> := ["Reader Description", "Transaction Type"]

  /** The texts pandas' `strptime` path reads as a missing date (NaT) instead of
      parsing: the empty string and the spellings of NaT and NaN. */
  const NatSpellings: set<string> := {"", "NaT", "nat", "NAT", "nan", "NaN", "NAN"}

  predicate NatText(c: Cell) {
    c.Some? && c.value.Text? && c.value.text in NatSpellings
  }

  /** No cell is missing outside `Access Date` and `Day Of Week`, the two columns a
      NaT text leaves empty. */
  predicate Filled(t: Table) {
    forall j, m ::
      (0 <= j < |t.rows| && 0 <= m < |t.columns| && m < |t.rows[j]| && t.columns[m] != AccessDate && t.columns[m] != DayOfWeek)
      ==> t.rows[j][m].Some?
  }

  // ---- step 1: header fix ----

  function FixHeader(c: string): string {
    if c == "Person" then PersonType else if c == "Access" then AccessDate else c
  }

  /** `fix_headers`: the export splits two headers across rows, leaving `Person` and
      `Access`; rename them and touch nothing else. */
  function FixHeaders(t: Table): (r: Table)
    ensures r.rows == t.rows && |r.columns| == |t.columns|
    ensures WellFormed(t) ==> WellFormed(r)
    ensures "Person" !in r.columns && "Access" !in r.columns
    ensures forall k :: 0 <= k < |t.columns| && t.columns[k] == "Person" ==> r.columns[k] == PersonType
    ensures forall k :: 0 <= k < |t.columns| && t.columns[k] == "Access" ==> r.columns[k] == AccessDate
    ensures forall k :: 0 <= k < |t.columns| && t.columns[k] != "Person" && t.columns[k] != "Access" ==>
      r.columns[k] == t.columns[k]
  {
    Table(seq(|t.columns|, k requires 0 <= k < |t.columns| => FixHeader(t.columns[k])), t.rows)
  }

  /** Fixing headers twice is fixing them once. */
  lemma FixHeadersIdempotent(t: Table)
    ensures FixHeaders(FixHeaders(t)) == FixHeaders(t)
  {
  }

  // ---- step 2: junk removal ----

  /** `remove_junk`: drop the always-empty `Category Used` column when present, then every
      row with a missing cell. A table of junk rows becomes an empty table. */
  function RemoveJunk(t: Table): (r: Table)
    requires WellFormed(t)
    ensures WellFormed(r) && NullFree(r)
    ensures forall c :: c in r.columns <==> c in t.columns && c != CategoryUsed
    ensures r.columns == DropColumns(t, {CategoryUsed}).columns
    ensures KeepsExactly(DropColumns(t, {CategoryUsed}).rows, r.rows, Complete)
    ensures CategoryUsed !in t.columns ==> r.columns == t.columns && KeepsExactly(t.rows, r.rows, Complete)
    ensures |r.rows| <= |t.rows|
  {
    var kept := DropColumns(t, {CategoryUsed});
    assert CategoryUsed !in t.columns ==> kept == t by {
      if CategoryUsed !in t.columns {
        KeptNothingDropped(t, {CategoryUsed});
      }
    }
    DropNa(kept)
  }

  /** Dropping labels that are absent changes nothing. */
  lemma KeptNothingDropped(t: Table, labels: set<string>)
    requires WellFormed(t)
    requires forall c :: c in t.columns ==> c !in labels
    ensures DropColumns(t, labels) == t
  {
    KeptAll(t.columns, labels);
    var r := DropColumns(t, labels);
    assert r.columns == t.columns;
    forall j | 0 <= j < |t.rows|
      ensures r.rows[j] == t.rows[j]
    {
    }
  }

  lemma {:induction false} KeptAll(columns: seq<string>, labels: set<string>)
    requires forall c :: c in columns ==> c !in labels
    ensures |Kept(columns, labels)| == |columns|
    ensures forall m :: 0 <= m < |columns| ==> Kept(columns, labels)[m] == m
  {
    if |columns| > 0 {
      var last := |columns| - 1;
      assert forall c :: c in columns[..last] ==> c in columns;
      KeptAll(columns[..last], labels);
      assert columns[last] in columns;
    }
  }

  // ---- step 3: schema gate ----

  /** `sorted(list(df.columns.values))`. */
  function SortedColumns(columns: seq<string>): (s: seq<string>)
    ensures Order.Sorted(s, StringOrder.Less)
    ensures multiset(s) == multiset(columns)
    ensures forall c :: c in s <==> c in columns
  {
    StringOrder.LessIsStrictTotalOrder();
    var s := Order.Sort(columns, StringOrder.Less);
    assert forall c :: c in s <==> c in multiset(s);
    assert forall c :: c in columns <==> c in multiset(columns);
    s
  }

  datatype Gate = Gate(baseline: seq<string>, compatible: bool)

  /** `compatability_check`: with no baseline, the sorted column names become the
      baseline; with one, the table passes exactly when its sorted column names equal it.
      A given baseline is handed back unchanged either way. */
  function CompatibilityCheck(t: Table, baseline: Option<seq<string>>): (g: Gate)
    ensures baseline.None? ==> g.compatible
    ensures baseline.None? ==>
      Order.Sorted(g.baseline, StringOrder.Less) && multiset(g.baseline) == multiset(t.columns)
    ensures baseline.None? ==> forall c :: c in g.baseline <==> c in t.columns
    ensures baseline.Some? ==> g.baseline == baseline.value
    ensures baseline.Some? && Order.Sorted(baseline.value, StringOrder.Less) ==>
      (g.compatible <==> multiset(t.columns) == multiset(baseline.value))
    ensures baseline.Some? && !Order.Sorted(baseline.value, StringOrder.Less) ==> !g.compatible
  {
    match baseline
    case None => Gate(SortedColumns(t.columns), true)
    case Some(b) =>
      StringOrder.LessIsStrictTotalOrder();
      assert Order.Sorted(b, StringOrder.Less) ==>
        (SortedColumns(t.columns) == b <==> multiset(t.columns) == multiset(b)) by {
        if Order.Sorted(b, StringOrder.Less) {
          Order.SortEqualIff(t.columns, b, StringOrder.Less);
        }
      }
      Gate(b, SortedColumns(t.columns) == b)
  }

  /** The "Required Columns" shown on a mismatch: the baseline without the name columns,
      which a comparison file may leave out. */
  function RequiredHeaders(baseline: seq<string>): (req: seq<string>)
    ensures forall c :: c in req <==> c in baseline && c != "Last Name" && c != "First Name"
    ensures Seqs.IsSubseq(req, baseline)
    ensures forall c :: multiset(req)[c] == if c != "Last Name" && c != "First Name" then multiset(baseline)[c] else 0
  {
    Seqs.Filter(baseline, c => c != "Last Name" && c != "First Name")
  }

  // ---- step 4: date parsing ----

  /** One cell of `pd.to_datetime(df['Access Date'], format='%d/%m/%Y')`: a NaT or NaN
      spelling and a missing value give a missing date (NaT), other text is parsed
      strictly, a date passes through. */
  function ToDate(c: Cell): (r: Result<Option<Dates.Date>, Error>)
    ensures r.Success? && r.value.Some? ==> Dates.Valid(r.value.value)
    ensures r.Success? ==> (r.value.None? <==> c.None? || NatText(c))
    ensures c.None? ==> r == Success(None)
    ensures NatText(c) ==> r == Success(None)
    ensures c.Some? && c.value.Day? ==>
      r == (if Dates.Valid(c.value.date) then Success(Some(c.value.date)) else Failure(NotADate(AccessDate)))
    ensures c.Some? && c.value.Code? ==> r == Failure(NotADate(AccessDate))
    ensures c.Some? && c.value.Text? && !NatText(c) ==>
      r == (if Dates.ParseDate(c.value.text).Some? then Success(Dates.ParseDate(c.value.text))
            else Failure(BadDate(c.value.text)))
  {
    match c
    case None => Success(None)
    case Some(Text(s)) =>
      if s in NatSpellings then Success(None)
      else
        (match Dates.ParseDate(s)
         case Some(d) => Success(Some(d))
         case None => Failure(BadDate(s)))
    case Some(Day(d)) => if Dates.Valid(d) then Success(Some(d)) else Failure(NotADate(AccessDate))
    case Some(Code(_)) => Failure(NotADate(AccessDate))
  }

  predicate ValidDates(dates: seq<Option<Dates.Date>>) {
    forall j :: 0 <= j < |dates| && dates[j].Some? ==> Dates.Valid(dates[j].value)
  }

  /** Converts a whole column; the first cell that cannot be converted raises. */
  function ToDates(cells: seq<Cell>): (r: Result<seq<Option<Dates.Date>>, Error>)
    ensures r.Success? <==> forall j :: 0 <= j < |cells| ==> ToDate(cells[j]).Success?
    ensures r.Success? ==> |r.value| == |cells|
    ensures r.Success? ==> ValidDates(r.value)
    ensures r.Success? ==> forall j :: 0 <= j < |cells| ==> Success(r.value[j]) == ToDate(cells[j])
    ensures r.Failure? ==> exists j :: 0 <= j < |cells| && ToDate(cells[j]) == Failure(r.error)
  {
    if |cells| == 0 then Success([])
    else
      var first :- ToDate(cells[0]);
      var rest :- ToDates(cells[1..]);
      assert forall j :: 1 <= j < |cells| ==> cells[j] == cells[1..][j - 1];
      Success([first] + rest)
  }

  /** The access date cell and the weekday cell of one row agree: both missing, or a
      valid date and its weekday name. */
  predicate WeekdayMatches(date: Cell, name: Cell) {
    || (date.None? && name.None?)
    || (date.Some? && date.value.Day? && Dates.Valid(date.value.date)
        && name == Some(Text(Dates.DayName(date.value.date))))
  }

  predicate RowDated(columns: seq<string>, row: Row) {
    forall a, w ::
      (0 <= a < |columns| && 0 <= w < |columns| && a < |row| && w < |row| && columns[a] == AccessDate && columns[w] == DayOfWeek)
      ==> WeekdayMatches(row[a], row[w])
  }

  /** Every row's `Day Of Week` is the weekday of its `Access Date`. */
  predicate Dated(t: Table) {
    forall j :: 0 <= j < |t.rows| ==> RowDated(t.columns, t.rows[j])
  }

  function DateCell(d: Option<Dates.Date>): Cell {
    if d.Some? then Some(Day(d.value)) else None
  }

  function NameCell(d: Option<Dates.Date>): Cell
    requires d.Some? ==> Dates.Valid(d.value)
  {
    if d.Some? then Some(Text(Dates.DayName(d.value))) else None
  }

  /** A text cell that neither matches the date format nor spells NaT. */
  predicate Unparseable(c: Cell) {
    c.Some? && c.value.Text? && !NatText(c) && Dates.ParseDate(c.value.text).None?
  }

  /** Writes the parsed dates over `Access Date` and their weekday names into
      `Day Of Week`. */
  function Stamp(t: Table, k: nat, parsed: seq<Option<Dates.Date>>): (r: Table)
    requires WellFormed(t) && k < |t.columns| && t.columns[k] == AccessDate
    requires |parsed| == |t.rows|
    requires forall j :: 0 <= j < |parsed| && parsed[j].Some? ==> Dates.Valid(parsed[j].value)
    ensures WellFormed(r) && |r.rows| == |t.rows|
    ensures r.columns == if DayOfWeek in t.columns then t.columns else t.columns + [DayOfWeek]
    ensures Dated(r)
    ensures forall j :: 0 <= j < |t.rows| ==> r.rows[j][k] == DateCell(parsed[j])
    ensures forall j, m :: 0 <= j < |r.rows| && 0 <= m < |r.columns| && r.columns[m] == AccessDate ==> r.rows[j][m] == DateCell(parsed[j])
    ensures forall j, m :: 0 <= j < |r.rows| && 0 <= m < |r.columns| && r.columns[m] == DayOfWeek ==> r.rows[j][m] == NameCell(parsed[j])
    ensures forall j, m :: 0 <= j < |t.rows| && 0 <= m < |t.columns| && t.columns[m] != AccessDate && t.columns[m] != DayOfWeek ==> r.rows[j][m] == t.rows[j][m]
    ensures NullFree(t) ==> Filled(r)
    ensures NullFree(t) && (forall j :: 0 <= j < |parsed| ==> parsed[j].Some?) ==> NullFree(r)
  {
    var t2 := SetColumn(SetColumn(t, AccessDate, DateCells(parsed)), DayOfWeek, NameCells(parsed));
    StampedCells(t, k, parsed);
    StampedDated(t2, parsed);
    StampedNullFree(t, t2, parsed);
    t2
  }

  function DateCells(parsed: seq<Option<Dates.Date>>): (cells: seq<Cell>)
    ensures |cells| == |parsed|
    ensures forall j :: 0 <= j < |parsed| ==> cells[j] == DateCell(parsed[j])
  {
    seq(|parsed|, j requires 0 <= j < |parsed| => DateCell(parsed[j]))
  }

  function NameCells(parsed: seq<Option<Dates.Date>>): (cells: seq<Cell>)
    requires forall j :: 0 <= j < |parsed| && parsed[j].Some? ==> Dates.Valid(parsed[j].value)
    ensures |cells| == |parsed|
    ensures forall j :: 0 <= j < |parsed| ==> cells[j] == NameCell(parsed[j])
  {
    seq(|parsed|, j requires 0 <= j < |parsed| => NameCell(parsed[j]))
  }

  /** Where the two `SetColumn` calls of `fix_dates` put the dates and their names. */
  lemma StampedCells(t: Table, k: nat, parsed: seq<Option<Dates.Date>>)
    requires WellFormed(t) && k < |t.columns| && t.columns[k] == AccessDate
    requires |parsed| == |t.rows|
    requires forall j :: 0 <= j < |parsed| && parsed[j].Some? ==> Dates.Valid(parsed[j].value)
    ensures var r := SetColumn(SetColumn(t, AccessDate, DateCells(parsed)), DayOfWeek, NameCells(parsed));
      && WellFormed(r) && |r.rows| == |t.rows|
      && r.columns == (if DayOfWeek in t.columns then t.columns else t.columns + [DayOfWeek])
      && (forall j :: 0 <= j < |t.rows| ==> r.rows[j][k] == DateCell(parsed[j]))
      && (forall j, m :: 0 <= j < |r.rows| && 0 <= m < |r.columns| ==>
            && (r.columns[m] == AccessDate ==> r.rows[j][m] == DateCell(parsed[j]))
            && (r.columns[m] == DayOfWeek ==> r.rows[j][m] == NameCell(parsed[j]))
            && (r.columns[m] != AccessDate && r.columns[m] != DayOfWeek ==> m < |t.columns| && r.rows[j][m] == t.rows[j][m]))
  {
    LabelsDistinct();
  }

  /** A table whose date columns hold the parsed dates and whose weekday columns hold
      their names is dated. */
  lemma StampedDated(t: Table, parsed: seq<Option<Dates.Date>>)
    requires WellFormed(t) && |parsed| == |t.rows|
    requires forall j :: 0 <= j < |parsed| && parsed[j].Some? ==> Dates.Valid(parsed[j].value)
    requires forall j, a :: 0 <= j < |t.rows| && 0 <= a < |t.columns| && t.columns[a] == AccessDate ==>
      t.rows[j][a] == DateCell(parsed[j])
    requires forall j, w :: 0 <= j < |t.rows| && 0 <= w < |t.columns| && t.columns[w] == DayOfWeek ==>
      t.rows[j][w] == NameCell(parsed[j])
    ensures Dated(t)
  {
    forall j | 0 <= j < |t.rows|
      ensures RowDated(t.columns, t.rows[j])
    {
      forall a, w | 0 <= a < |t.columns| && 0 <= w < |t.columns| && t.columns[a] == AccessDate && t.columns[w] == DayOfWeek
        ensures WeekdayMatches(t.rows[j][a], t.rows[j][w])
      {
        assert t.rows[j][a] == DateCell(parsed[j]);
        assert t.rows[j][w] == NameCell(parsed[j]);
      }
    }
  }

  /** Stamping a table without missing cells leaves cells missing only in the date
      columns, and none at all when every date parsed. */
  lemma StampedNullFree(t: Table, r: Table, parsed: seq<Option<Dates.Date>>)
    requires WellFormed(t) && WellFormed(r) && |r.rows| == |t.rows| == |parsed|
    requires forall j :: 0 <= j < |parsed| && parsed[j].Some? ==> Dates.Valid(parsed[j].value)
    requires forall j, m :: 0 <= j < |t.rows| && 0 <= m < |r.columns| ==>
      && (r.columns[m] == AccessDate ==> r.rows[j][m] == DateCell(parsed[j]))
      && (r.columns[m] == DayOfWeek ==> r.rows[j][m] == NameCell(parsed[j]))
      && (r.columns[m] != AccessDate && r.columns[m] != DayOfWeek ==> m < |t.columns| && r.rows[j][m] == t.rows[j][m])
    ensures NullFree(t) ==> Filled(r)
    ensures NullFree(t) && (forall j :: 0 <= j < |parsed| ==> parsed[j].Some?) ==> NullFree(r)
  {
    if NullFree(t) {
      forall j, m | 0 <= j < |r.rows| && 0 <= m < |r.columns| && r.columns[m] != AccessDate && r.columns[m] != DayOfWeek
        ensures r.rows[j][m].Some?
      {
        assert Complete(t.rows[j]);
      }
    }
    if NullFree(t) && (forall j :: 0 <= j < |parsed| ==> parsed[j].Some?) {
      forall j, m | 0 <= j < |r.rows| && 0 <= m < |r.columns|
        ensures r.rows[j][m].Some?
      {
        assert parsed[j].Some?;
        if r.columns[m] != AccessDate && r.columns[m] != DayOfWeek {
          assert Complete(t.rows[j]);
        }
      }
    }
  }

  /** `fix_dates`: parse `Access Date` strictly, add `Day Of Week` (the weekday name of
      the parsed date) and keep only the calendar date. Fails on the first value that does
      not match the format. */
  function FixDates(t: Table): (r: Result<Table, Error>)
    requires WellFormed(t)
    ensures r.Success? ==> Locate(t.columns, AccessDate).Success?
    ensures Locate(t.columns, AccessDate).Success? ==>
      (r.Success? <==> forall j :: 0 <= j < |t.rows| ==> ToDate(t.rows[j][Locate(t.columns, AccessDate).value]).Success?)
    ensures Locate(t.columns, AccessDate).Success? ==>
      forall j :: 0 <= j < |t.rows| && Unparseable(t.rows[j][Locate(t.columns, AccessDate).value]) ==> r.Failure?
    ensures r.Success? ==> WellFormed(r.value) && |r.value.rows| == |t.rows|
    ensures r.Success? ==>
      r.value.columns == if DayOfWeek in t.columns then t.columns else t.columns + [DayOfWeek]
    ensures r.Success? ==> Dated(r.value)
    ensures r.Success? ==> forall j, k ::
      (0 <= j < |t.rows| && 0 <= k < |t.columns| && t.columns[k] != AccessDate && t.columns[k] != DayOfWeek)
      ==> r.value.rows[j][k] == t.rows[j][k]
    ensures r.Success? && NullFree(t) ==> Filled(r.value)
    ensures r.Success? && NullFree(t) && (forall j :: 0 <= j < |t.rows| ==> !NatText(t.rows[j][Locate(t.columns, AccessDate).value])) ==>
      NullFree(r.value)
  {
    var k :- Locate(t.columns, AccessDate);
    ColumnDates(t, k);
    var parsed :- ToDates(Column(t, k));
    Success(Stamp(t, k, parsed))
  }

  /** Converting column `k` cell by cell: it succeeds exactly when every cell converts,
      and a complete column without NaT spellings converts to present dates only. */
  lemma ColumnDates(t: Table, k: nat)
    requires WellFormed(t) && k < |t.columns|
    ensures ToDates(Column(t, k)).Success? <==> forall j :: 0 <= j < |t.rows| ==> ToDate(t.rows[j][k]).Success?
    ensures (exists j :: 0 <= j < |t.rows| && Unparseable(t.rows[j][k])) ==> ToDates(Column(t, k)).Failure?
    ensures ToDates(Column(t, k)).Success? && NullFree(t) && (forall j :: 0 <= j < |t.rows| ==> !NatText(t.rows[j][k])) ==>
      forall j :: 0 <= j < |t.rows| ==> ToDates(Column(t, k)).value[j].Some?
  {
    var cells := Column(t, k);
    assert forall j :: 0 <= j < |t.rows| ==> cells[j] == t.rows[j][k];
    if ToDates(cells).Success? && NullFree(t) && (forall j :: 0 <= j < |t.rows| ==> !NatText(t.rows[j][k])) {
      var parsed := ToDates(cells).value;
      forall j | 0 <= j < |t.rows|
        ensures parsed[j].Some?
      {
        assert Complete(t.rows[j]);
        assert ToDate(cells[j]) == Success(parsed[j]);
      }
    }
  }

  /** What `fix_dates` writes into the date columns: each row's parsed date (missing
      for NaN, NaT and their spellings) and that date's weekday name. */
  lemma FixDatesCells(t: Table)
    requires WellFormed(t)
    ensures FixDates(t).Success? ==> Locate(t.columns, AccessDate).Success?
    ensures FixDates(t).Success? ==>
      var r := FixDates(t).value;
      var k := Locate(t.columns, AccessDate).value;
      var dates := ToDates(Column(t, k));
      && dates.Success?
      && (forall j, m :: 0 <= j < |r.rows| && 0 <= m < |r.columns| && r.columns[m] == AccessDate ==>
            r.rows[j][m] == DateCell(dates.value[j]))
      && (forall j, m :: 0 <= j < |r.rows| && 0 <= m < |r.columns| && r.columns[m] == DayOfWeek ==>
            r.rows[j][m] == NameCell(dates.value[j]))
      && (forall j :: 0 <= j < |t.rows| ==>
            var c := t.rows[j][k];
            && (c.None? || NatText(c) <==> r.rows[j][k].None?)
            && (c.Some? && c.value.Text? && !NatText(c) ==> r.rows[j][k] == Some(Day(Dates.ParseDate(c.value.text).value))))
  {
    if FixDates(t).Success? {
      var k := Locate(t.columns, AccessDate).value;
      var parsed := ToDates(Column(t, k)).value;
      assert FixDates(t).value == Stamp(t, k, parsed);
    }
  }

  // ---- step 5: anonymisation ----

  /** The text of each identifier cell; missing values stay missing. */
  function TextCells(cells: seq<Cell>, name: string): (r: Result<seq<Option<string>>, Error>)
    ensures r.Success? <==> forall j :: 0 <= j < |cells| ==> cells[j].None? || cells[j].value.Text?
    ensures r.Success? ==> |r.value| == |cells|
    ensures r.Success? ==> forall j :: 0 <= j < |cells| ==>
      r.value[j] == if cells[j].Some? then Some(cells[j].value.text) else None
  {
    if forall j :: 0 <= j < |cells| ==> cells[j].None? || cells[j].value.Text? then
      Success(seq(|cells|, j requires 0 <= j < |cells| => if cells[j].Some? then Some(cells[j].value.text) else None))
    else Failure(NotText(name))
  }

  /** The present values, in order (`dropna` on a single column). */
  function Present<T(==,!new)>(ids: seq<Option<T>>): (xs: seq<T>)
    ensures forall s :: s in xs <==> Some(s) in ids
  {
    if |ids| == 0 then []
    else
      var n := |ids| - 1;
      assert ids == ids[..n] + [ids[n]];
      Present(ids[..n]) + (if ids[n].Some? then [ids[n].value] else [])
  }

  /** `astype('category').cat.categories`: the distinct identifiers, sorted. */
  function Categories(ids: seq<Option<string>>): (cats: seq<string>)
    ensures Order.StrictlySorted(cats, StringOrder.Less)
    ensures forall s :: s in cats <==> Some(s) in ids
  {
    StringOrder.LessIsStrictTotalOrder();
    Order.SortedDistinct(Present(ids), StringOrder.Less)
  }

  /** In a strictly sorted sequence an element's position is its rank. */
  lemma RankOrder(cats: seq<string>, a: string, b: string)
    requires Order.StrictlySorted(cats, StringOrder.Less)
    requires a in cats && b in cats
    ensures Seqs.FirstIndex(cats, a) == Seqs.FirstIndex(cats, b) <==> a == b
    ensures StringOrder.Less(a, b) ==> Seqs.FirstIndex(cats, a) < Seqs.FirstIndex(cats, b)
  {
    var i := Seqs.FirstIndex(cats, a);
    var j := Seqs.FirstIndex(cats, b);
    if StringOrder.Less(a, b) && j <= i {
      StringOrder.LessIrreflexive(a);
      if j < i {
        StringOrder.LessTransitive(a, b, a);
      }
    }
  }

  /** `astype('category').cat.codes`: each identifier's position among the sorted
      distinct identifiers; a missing identifier gets -1. */
  function CategoryCodes(ids: seq<Option<string>>): (codes: seq<int>)
    ensures |codes| == |ids|
    ensures forall j :: 0 <= j < |ids| && ids[j].None? ==> codes[j] == -1
    ensures forall j :: 0 <= j < |ids| && ids[j].Some? ==> 0 <= codes[j] < |Categories(ids)|
    ensures forall i, j :: 0 <= i < |ids| && 0 <= j < |ids| && ids[i].Some? && ids[j].Some? ==>
      (codes[i] == codes[j] <==> ids[i] == ids[j])
    ensures forall i, j ::
      (0 <= i < |ids| && 0 <= j < |ids| && ids[i].Some? && ids[j].Some? && StringOrder.Less(ids[i].value, ids[j].value))
      ==> codes[i] < codes[j]
    ensures forall c :: 0 <= c < |Categories(ids)| ==> c in codes
  {
    var cats := Categories(ids);
    var codes := seq(|ids|, j requires 0 <= j < |ids| =>
      if ids[j].Some? then Seqs.FirstIndex(cats, ids[j].value) as int else -1);
    forall i, j | 0 <= i < |ids| && 0 <= j < |ids| && ids[i].Some? && ids[j].Some?
      ensures codes[i] == codes[j] <==> ids[i] == ids[j]
      ensures StringOrder.Less(ids[i].value, ids[j].value) ==> codes[i] < codes[j]
    {
      RankOrder(cats, ids[i].value, ids[j].value);
    }
    forall c | 0 <= c < |cats|
      ensures c in codes
    {
      assert cats[c] in cats;
      var j :| 0 <= j < |ids| && ids[j] == Some(cats[c]);
      assert codes[j] == c;
    }
    codes
  }

  /** The `anon_id` column added before the identity columns are dropped. */
  function WithCodes(t: Table, codes: seq<int>): (r: Table)
    requires WellFormed(t) && |codes| == |t.rows|
    ensures WellFormed(r) && |r.rows| == |t.rows|
    ensures forall c :: c in r.columns <==> c in t.columns || c == AnonId
    ensures forall j, m :: 0 <= j < |r.rows| && 0 <= m < |r.columns| && r.columns[m] == AnonId ==> r.rows[j][m] == Some(Code(codes[j]))
    ensures forall j, m :: 0 <= j < |r.rows| && 0 <= m < |r.columns| && r.columns[m] != AnonId ==>
      m < |t.columns| && r.rows[j][m] == t.rows[j][m]
    ensures NullFree(t) ==> NullFree(r)
    ensures Filled(t) ==> Filled(r)
    ensures Dated(t) ==> Dated(r)
  {
    var r := SetColumn(t, AnonId, seq(|codes|, j requires 0 <= j < |codes| => Some(Code(codes[j]))));
    CodesKeepGaps(t, codes, r);
    r
  }

  /** Adding a column of present codes opens no gap and keeps every row dated. */
  lemma CodesKeepGaps(t: Table, codes: seq<int>, r: Table)
    requires WellFormed(t) && |codes| == |t.rows|
    requires r == SetColumn(t, AnonId, seq(|codes|, j requires 0 <= j < |codes| => Some(Code(codes[j]))))
    ensures NullFree(t) ==> NullFree(r)
    ensures Filled(t) ==> Filled(r)
    ensures Dated(t) ==> Dated(r)
  {
    if NullFree(t) {
      forall j | 0 <= j < |r.rows|
        ensures Complete(r.rows[j])
      {
        assert Complete(t.rows[j]);
      }
    }
    if Dated(t) {
      forall j | 0 <= j < |r.rows|
        ensures RowDated(r.columns, r.rows[j])
      {
        assert RowDated(t.columns, t.rows[j]);
      }
    }
    if Filled(t) {
      forall j, m | 0 <= j < |r.rows| && 0 <= m < |r.columns| && r.columns[m] != AccessDate && r.columns[m] != DayOfWeek
        ensures r.rows[j][m].Some?
      {
        if r.columns[m] != AnonId {
          assert t.columns[m] == r.columns[m];
        }
      }
    }
  }

  /** `anonymize`: `anon_id` becomes the category code of the row's `CDSID`, then the
      name and credential columns are dropped. */
  function Anonymize(t: Table): (r: Result<Table, Error>)
    requires WellFormed(t)
    ensures r.Success? <==>
      && Locate(t.columns, CdsId).Success?
      && TextCells(Column(t, Locate(t.columns, CdsId).value), CdsId).Success?
      && forall n :: n in IdentityColumns ==> n in t.columns
    ensures r.Success? ==> Locate(t.columns, CdsId).Success?
    ensures r.Success? ==> TextCells(Column(t, Locate(t.columns, CdsId).value), CdsId).Success?
    ensures r.Success? ==> WellFormed(r.value) && |r.value.rows| == |t.rows|
    ensures r.Success? ==> forall c :: c in r.value.columns <==> (c in t.columns || c == AnonId) && c !in IdentityColumns
    ensures r.Success? ==>
      var ids := TextCells(Column(t, Locate(t.columns, CdsId).value), CdsId).value;
      forall j, m :: 0 <= j < |r.value.rows| && 0 <= m < |r.value.columns| && r.value.columns[m] == AnonId ==>
        r.value.rows[j][m] == Some(Code(CategoryCodes(ids)[j]))
    ensures r.Success? && NullFree(t) ==> NullFree(r.value)
    ensures r.Success? && Filled(t) ==> Filled(r.value)
    ensures r.Success? && Dated(t) ==> Dated(r.value)
    ensures r.Success? ==> forall j :: 0 <= j < |r.value.rows| ==> RowFrom(t.columns, t.rows[j], r.value.columns, r.value.rows[j], {AnonId})
  {
    var k :- Locate(t.columns, CdsId);
    var ids :- TextCells(Column(t, k), CdsId);
    var codes := CategoryCodes(ids);
    LabelsDistinct();
    CodesShape(t, codes, Labels(IdentityColumns));
    CodesFrame(t, codes, Labels(IdentityColumns));
    DropNamed(WithCodes(t, codes), IdentityColumns)
  }

  /** Adding `anon_id` and dropping columns rewrites no cell but `anon_id`, and leaves
      no new gap outside the date columns. */
  lemma CodesFrame(t: Table, codes: seq<int>, labels: set<string>)
    requires WellFormed(t) && |codes| == |t.rows| && AnonId !in labels
    ensures var r := DropColumns(WithCodes(t, codes), labels);
      && (forall j, m :: 0 <= j < |r.rows| && 0 <= m < |r.columns| && r.columns[m] == AnonId ==> r.rows[j][m] == Some(Code(codes[j])))
      && (forall j :: 0 <= j < |r.rows| ==> RowFrom(t.columns, t.rows[j], r.columns, r.rows[j], {AnonId}))
      && (Filled(t) ==> Filled(r))
      && (Dated(t) ==> Dated(r))
  {
    var w := WithCodes(t, codes);
    DropKeepsCodes(w, labels, codes);
    if Dated(t) {
      DropKeepsDated(w, labels);
    }
    if Filled(t) {
      DropKeepsFilled(w, labels);
    }
    CodesRowsFrom(t, codes, labels);
  }

  /** Every cell but `anon_id` after adding codes and dropping columns is a cell of
      the original row under the same label. */
  lemma CodesRowsFrom(t: Table, codes: seq<int>, labels: set<string>)
    requires WellFormed(t) && |codes| == |t.rows|
    ensures var r := DropColumns(WithCodes(t, codes), labels);
      forall j :: 0 <= j < |r.rows| ==> RowFrom(t.columns, t.rows[j], r.columns, r.rows[j], {AnonId})
  {
    var w := WithCodes(t, codes);
    var r := DropColumns(w, labels);
    forall j | 0 <= j < |r.rows|
      ensures RowFrom(t.columns, t.rows[j], r.columns, r.rows[j], {AnonId})
    {
      forall m | 0 <= m < |w.columns| && w.columns[m] !in {AnonId}
        ensures CellFrom(t.columns, t.rows[j], w.columns[m], w.rows[j][m])
      {
        assert t.columns[m] == w.columns[m] && t.rows[j][m] == w.rows[j][m];
      }
      DropRowFrom(w, labels, j);
      RowFromTrans(t.columns, t.rows[j], w.columns, w.rows[j], r.columns, r.rows[j], {}, {AnonId});
      assert {} + {AnonId} == {AnonId};
    }
  }

  /** The columns left after adding `anon_id` and dropping `labels`. */
  lemma CodesShape(t: Table, codes: seq<int>, labels: set<string>)
    requires WellFormed(t) && |codes| == |t.rows|
    ensures var r := DropColumns(WithCodes(t, codes), labels);
      && WellFormed(r) && |r.rows| == |t.rows|
      && (forall c :: c in r.columns <==> (c in t.columns || c == AnonId) && c !in labels)
      && (NullFree(t) ==> NullFree(r))
  {
  }

  /** Dropping columns opens no gap. */
  lemma DropKeepsFilled(t: Table, labels: set<string>)
    requires WellFormed(t) && Filled(t)
    ensures Filled(DropColumns(t, labels))
  {
    var r := DropColumns(t, labels);
    var ks := Kept(t.columns, labels);
    forall j, m | 0 <= j < |r.rows| && 0 <= m < |r.columns| && r.columns[m] != AccessDate && r.columns[m] != DayOfWeek
      ensures r.rows[j][m].Some?
    {
      assert t.columns[ks[m]] == r.columns[m];
    }
  }

  lemma DropKeepsCodes(t: Table, labels: set<string>, codes: seq<int>)
    requires WellFormed(t) && |codes| == |t.rows| && AnonId !in labels
    requires forall j, m :: 0 <= j < |t.rows| && 0 <= m < |t.columns| && t.columns[m] == AnonId ==> t.rows[j][m] == Some(Code(codes[j]))
    ensures var r := DropColumns(t, labels);
      forall j, m :: 0 <= j < |r.rows| && 0 <= m < |r.columns| && r.columns[m] == AnonId ==> r.rows[j][m] == Some(Code(codes[j]))
  {
    var r := DropColumns(t, labels);
    var ks := Kept(t.columns, labels);
    forall j, m | 0 <= j < |r.rows| && 0 <= m < |r.columns| && r.columns[m] == AnonId
      ensures r.rows[j][m] == Some(Code(codes[j]))
    {
      assert t.columns[ks[m]] == AnonId;
    }
  }

  /** Dropping columns keeps every remaining row's dates and weekday names together. */
  lemma DropKeepsDated(t: Table, labels: set<string>)
    requires WellFormed(t) && Dated(t)
    ensures Dated(DropColumns(t, labels))
  {
    var r := DropColumns(t, labels);
    var ks := Kept(t.columns, labels);
    forall j | 0 <= j < |r.rows|
      ensures RowDated(r.columns, r.rows[j])
    {
      assert RowDated(t.columns, t.rows[j]);
      forall a, w | 0 <= a < |r.columns| && 0 <= w < |r.columns| && r.columns[a] == AccessDate && r.columns[w] == DayOfWeek
        ensures WeekdayMatches(r.rows[j][a], r.rows[j][w])
      {
        assert t.columns[ks[a]] == AccessDate && t.columns[ks[w]] == DayOfWeek;
      }
    }
  }

  // ---- step 6: one swipe per day ----

  /** `count_one_swipe_per_day`: drop the door and transaction columns, then keep the
      first of each group of identical rows. */
  function CountOneSwipePerDay(t: Table): (r: Result<Table, Error>)
    requires WellFormed(t)
    ensures r.Success? <==> forall n :: n in SubDayColumns ==> n in t.columns
    ensures r.Success? ==>
      var projected := DropColumns(t, Labels(SubDayColumns));
      && WellFormed(r.value)
      && r.value.columns == projected.columns
      && Seqs.NoDup(r.value.rows)
      && (forall row :: row in r.value.rows <==> row in projected.rows)
      && (forall i, j :: 0 <= i < j < |r.value.rows| ==>
            Seqs.FirstIndex(projected.rows, r.value.rows[i]) < Seqs.FirstIndex(projected.rows, r.value.rows[j]))
    ensures r.Success? ==> forall c :: c in r.value.columns <==> c in t.columns && c !in SubDayColumns
    ensures r.Success? && NullFree(t) ==> NullFree(r.value)
    ensures r.Success? && Filled(t) ==> Filled(r.value)
    ensures r.Success? && Dated(t) ==> Dated(r.value)
  {
    var projected :- DropNamed(t, SubDayColumns);
    var rows := Seqs.Dedup(projected.rows);
    var r := Table(projected.columns, rows);
    assert forall j :: 0 <= j < |rows| ==> rows[j] in projected.rows;
    assert WellFormed(r);
    assert NullFree(t) ==> NullFree(r) by {
      if NullFree(t) {
        forall j | 0 <= j < |rows|
          ensures Complete(rows[j])
        {
          var i :| 0 <= i < |projected.rows| && projected.rows[i] == rows[j];
        }
      }
    }
    assert Filled(t) ==> Filled(r) by {
      if Filled(t) {
        DropKeepsFilled(t, Labels(SubDayColumns));
        forall j, m | 0 <= j < |rows| && 0 <= m < |r.columns| && r.columns[m] != AccessDate && r.columns[m] != DayOfWeek
          ensures rows[j][m].Some?
        {
          var i :| 0 <= i < |projected.rows| && projected.rows[i] == rows[j];
        }
      }
    }
    assert Dated(t) ==> Dated(r) by {
      if Dated(t) {
        DropKeepsDated(t, Labels(SubDayColumns));
        forall j | 0 <= j < |rows|
          ensures RowDated(r.columns, rows[j])
        {
          var i :| 0 <= i < |projected.rows| && projected.rows[i] == rows[j];
        }
      }
    }
    Success(r)
  }

  // ---- the pipeline ----

  /** Every column the cleaned table must not carry. */
  predicate Removed(c: string) {
    c == CategoryUsed || c in IdentityColumns || c in SubDayColumns
  }

  /** The shape of a cleaned swipe-day table. */
  predicate Clean(t: Table) {
    && WellFormed(t)
    && Filled(t)
    && Dated(t)
    && Seqs.NoDup(t.rows)
    && AccessDate in t.columns && DayOfWeek in t.columns && AnonId in t.columns
    && (forall c :: c in t.columns ==> !Removed(c))
  }

  /** The table the schema gate inspects. */
  function Gated(raw: Table): Table
    requires WellFormed(raw)
  {
    RemoveJunk(FixHeaders(raw))
  }

  /** `anonymize` drops only the identity columns, so the sub-day columns are there
      after it exactly when they were there before. */
  lemma SubDayKept(before: seq<string>, after: seq<string>)
    requires forall c :: c in after <==> (c in before || c == AnonId) && c !in IdentityColumns
    ensures (forall n :: n in SubDayColumns ==> n in after) <==> (forall n :: n in SubDayColumns ==> n in before)
  {
    var rd, tt := SubDayColumns[0], SubDayColumns[1];
    assert rd in after <==> rd in before;
    assert tt in after <==> tt in before;
    assert forall n :: n in SubDayColumns ==> n == rd || n == tt;
  }

  /** `fix_dates` adds at most `Day Of Week`, so the sub-day columns are there after it
      exactly when they were there before. */
  lemma SubDayDated(before: seq<string>, after: seq<string>)
    requires forall c :: c in after <==> c in before || c == DayOfWeek
    ensures (forall n :: n in SubDayColumns ==> n in after) <==> (forall n :: n in SubDayColumns ==> n in before)
  {
    var rd, tt := SubDayColumns[0], SubDayColumns[1];
    assert rd in after <==> rd in before;
    assert tt in after <==> tt in before;
    assert forall n :: n in SubDayColumns ==> n == rd || n == tt;
  }

  lemma LabelsDistinct()
    ensures AccessDate !in IdentityColumns && DayOfWeek !in IdentityColumns && AnonId !in IdentityColumns
    ensures AccessDate !in SubDayColumns && DayOfWeek !in SubDayColumns && AnonId !in SubDayColumns
    ensures !Removed(AccessDate) && !Removed(DayOfWeek) && !Removed(AnonId)
  {
  }

  /** The three steps after a passed schema gate: `fix_dates`, `anonymize`,
      `count_one_swipe_per_day`, in that order. */
  function CleanGated(t: Table): (r: Result<Table, Error>)
    requires WellFormed(t) && NullFree(t) && CategoryUsed !in t.columns
    ensures r.Success? <==>
      && FixDates(t).Success?
      && Anonymize(FixDates(t).value).Success?
      && forall n :: n in SubDayColumns ==> n in t.columns
    ensures r.Success? ==> Clean(r.value)
    ensures r.Success? ==> forall c :: c in t.columns && !Removed(c) ==> c in r.value.columns
  {
    var dated :- FixDates(t);
    assert AccessDate in dated.columns && DayOfWeek in dated.columns;
    assert forall c :: c in dated.columns <==> c in t.columns || c == DayOfWeek;
    SubDayDated(t.columns, dated.columns);
    AnonymizeDaily(dated)
  }

  /** `anonymize` then `count_one_swipe_per_day` on a dated table. */
  function AnonymizeDaily(dated: Table): (r: Result<Table, Error>)
    requires WellFormed(dated) && Filled(dated) && Dated(dated) && CategoryUsed !in dated.columns
    requires AccessDate in dated.columns && DayOfWeek in dated.columns
    ensures r.Success? <==> Anonymize(dated).Success? && forall n :: n in SubDayColumns ==> n in dated.columns
    ensures r.Success? ==> Clean(r.value)
    ensures r.Success? ==> forall c :: c in dated.columns && !Removed(c) ==> c in r.value.columns
  {
    LabelsDistinct();
    var anonymous :- Anonymize(dated);
    SubDayKept(dated.columns, anonymous.columns);
    assert AccessDate in anonymous.columns && DayOfWeek in anonymous.columns && AnonId in anonymous.columns;
    assert CategoryUsed !in anonymous.columns;
    var daily :- CountOneSwipePerDay(anonymous);
    assert AccessDate in daily.columns && DayOfWeek in daily.columns && AnonId in daily.columns;
    Success(daily)
  }

  /** `clean_and_validate_df`: returns the cleaned table (or no table when the schema gate
      rejects it) and the baseline to keep; an exception from a step is a Failure. */
  function CleanAndValidate(raw: Table, baseline: Option<seq<string>>): (r: Result<(Option<Table>, seq<string>), Error>)
    requires WellFormed(raw)
    ensures baseline.Some? && r.Success? ==> r.value.1 == baseline.value
    ensures baseline.None? && r.Success? ==>
      && r.value.0.Some?
      && Order.Sorted(r.value.1, StringOrder.Less)
      && multiset(r.value.1) == multiset(Gated(raw).columns)
      && CategoryUsed !in r.value.1
    ensures baseline.Some? && Order.Sorted(baseline.value, StringOrder.Less) ==>
      (r == Success((None, baseline.value)) <==> multiset(Gated(raw).columns) != multiset(baseline.value))
    ensures baseline.Some? && !Order.Sorted(baseline.value, StringOrder.Less) ==> r == Success((None, baseline.value))
    ensures baseline.None? || (Order.Sorted(baseline.value, StringOrder.Less) && multiset(Gated(raw).columns) == multiset(baseline.value)) ==>
      (r.Success? <==> CleanGated(Gated(raw)).Success?)
    ensures r.Success? && r.value.0.Some? ==> Clean(r.value.0.value)
  {
    var t := Gated(raw);
    var gate := CompatibilityCheck(t, baseline);
    if !gate.compatible then
      Success((None, gate.baseline))
    else
      var daily :- CleanGated(t);
      Success((Some(daily), gate.baseline))
  }

  /** The columns the door export leaves after cleaning, each once. */
  predicate ExportColumns(columns: seq<string>) {
    && Seqs.NoDup(columns)
    && (forall c :: c in columns ==> c in [PersonType, AccessDate, DayOfWeek, AnonId])
    && PersonType in columns && AccessDate in columns && DayOfWeek in columns && AnonId in columns
  }

  /** With only the export's columns left, two dated rows for the same person on the same
      day, carrying the same person type, are the same row. */
  lemma SameKeySameRow(t: Table, i: nat, j: nat, ka: nat, kd: nat, kp: nat)
    requires WellFormed(t) && Dated(t) && ExportColumns(t.columns)
    requires i < |t.rows| && j < |t.rows|
    requires ka < |t.columns| && t.columns[ka] == AnonId
    requires kd < |t.columns| && t.columns[kd] == AccessDate
    requires kp < |t.columns| && t.columns[kp] == PersonType
    requires t.rows[i][ka] == t.rows[j][ka] && t.rows[i][kd] == t.rows[j][kd]
    requires t.rows[i][kp] == t.rows[j][kp]
    ensures t.rows[i] == t.rows[j]
  {
    var x, y := t.rows[i], t.rows[j];
    assert DayOfWeek in t.columns;
    var kw :| 0 <= kw < |t.columns| && t.columns[kw] == DayOfWeek;
    assert RowDated(t.columns, x) && RowDated(t.columns, y);
    assert WeekdayMatches(x[kd], x[kw]) && WeekdayMatches(y[kd], y[kw]);
    forall m | 0 <= m < |t.columns|
      ensures x[m] == y[m]
    {
      assert t.columns[m] in [PersonType, AccessDate, DayOfWeek, AnonId];
    }
  }

  /** `count_one_swipe_per_day` removes only exact duplicates. With the export's columns
      and one person type per person and day, that is one event per person per day:
      distinct rows of a clean table differ in `anon_id` or in date. */
  lemma OneEventPerPersonDay(t: Table, i: nat, j: nat, ka: nat, kd: nat, kp: nat)
    requires Clean(t) && ExportColumns(t.columns)
    requires i < j < |t.rows|
    requires ka < |t.columns| && t.columns[ka] == AnonId
    requires kd < |t.columns| && t.columns[kd] == AccessDate
    requires kp < |t.columns| && t.columns[kp] == PersonType
    requires t.rows[i][ka] == t.rows[j][ka] && t.rows[i][kd] == t.rows[j][kd] ==> t.rows[i][kp] == t.rows[j][kp]
    ensures t.rows[i][ka] != t.rows[j][ka] || t.rows[i][kd] != t.rows[j][kd]
  {
    if t.rows[i][ka] == t.rows[j][ka] && t.rows[i][kd] == t.rows[j][kd] {
      SameKeySameRow(t, i, j, ka, kd, kp);
    }
  }

  // ---- what the cleaned rows are ----

  /** `row`, laid out under `columns`, is the gated row `source` (laid out under
      `sourceColumns`) as cleaned: its date is the source's parsed date `date`, its
      weekday that date's name, its `anon_id` the source's code, and every other cell
      is one of the source's cells under the same label. */
  predicate CleanedFrom(sourceColumns: seq<string>, source: Row, date: Option<Dates.Date>, code: int, columns: seq<string>, row: Row)
    requires date.Some? ==> Dates.Valid(date.value)
  {
    && |row| == |columns|
    && (forall m :: 0 <= m < |columns| && columns[m] == AccessDate ==> row[m] == DateCell(date))
    && (forall m :: 0 <= m < |columns| && columns[m] == DayOfWeek ==> row[m] == NameCell(date))
    && (forall m :: 0 <= m < |columns| && columns[m] == AnonId ==> row[m] == Some(Code(code)))
    && RowFrom(sourceColumns, source, columns, row, {AccessDate, DayOfWeek, AnonId})
  }

  /** Every row of `r` is some row of `t` as cleaned with its parsed date and code,
      and every row of `t`, as cleaned, is a row of `r`. */
  predicate RowsCleanedFrom(t: Table, dates: seq<Option<Dates.Date>>, codes: seq<int>, r: Table)
    requires |dates| == |codes| == |t.rows| && ValidDates(dates)
  {
    && (forall i :: 0 <= i < |r.rows| ==>
          exists j :: 0 <= j < |t.rows| && CleanedFrom(t.columns, t.rows[j], dates[j], codes[j], r.columns, r.rows[i]))
    && (forall j :: 0 <= j < |t.rows| ==>
          exists i :: 0 <= i < |r.rows| && CleanedFrom(t.columns, t.rows[j], dates[j], codes[j], r.columns, r.rows[i]))
  }

  /** `clean_and_validate_df` after a passed gate keeps the gated rows and only them:
      every cleaned row is some gated row as cleaned, and every gated row, as cleaned,
      is in the result. */
  lemma CleanGatedRows(t: Table)
    requires WellFormed(t) && NullFree(t) && CategoryUsed !in t.columns
    ensures CleanGated(t).Success? ==>
      && Locate(t.columns, AccessDate).Success? && Locate(t.columns, CdsId).Success?
      && ToDates(Column(t, Locate(t.columns, AccessDate).value)).Success?
      && TextCells(Column(t, Locate(t.columns, CdsId).value), CdsId).Success?
      && RowsCleanedFrom(t, ToDates(Column(t, Locate(t.columns, AccessDate).value)).value,
           CategoryCodes(TextCells(Column(t, Locate(t.columns, CdsId).value), CdsId).value), CleanGated(t).value)
  {
    if CleanGated(t).Success? {
      GatedSteps(t);
      var dated, dates := DatedSteps(t);
      var anon, codes := AnonSteps(dated);
      var kc := SameCodesAfterDates(t, dated);
      var r := CountOneSwipePerDay(anon).value;
      LabelsDistinct();
      ProjectedAll(t, dated, anon, dates, codes);
      DedupedRows(t, DropColumns(anon, Labels(SubDayColumns)), r, dates, codes);
    }
  }

  /** After a passed gate the pipeline returns a table exactly when `Access Date`
      converts, `CDSID` is a single text column, and the identity and sub-day columns
      are all present: the only exceptions its three steps raise. */
  lemma CleanGatedSucceeds(t: Table)
    requires WellFormed(t) && NullFree(t) && CategoryUsed !in t.columns
    ensures CleanGated(t).Success? <==>
      && FixDates(t).Success?
      && Locate(t.columns, CdsId).Success?
      && TextCells(Column(t, Locate(t.columns, CdsId).value), CdsId).Success?
      && (forall n :: n in IdentityColumns ==> n in t.columns)
      && (forall n :: n in SubDayColumns ==> n in t.columns)
  {
    if FixDates(t).Success? {
      var dated, _ := DatedSteps(t);
      AnonymizeAfterDates(t, dated);
    }
  }

  /** `anonymize` succeeds on the dated table exactly when the gated table has a single
      text `CDSID` column and all identity columns. */
  lemma AnonymizeAfterDates(t: Table, dated: Table)
    requires WellFormed(t) && WellFormed(dated) && |dated.rows| == |t.rows|
    requires dated.columns == t.columns || dated.columns == t.columns + [DayOfWeek]
    requires forall j, k :: 0 <= j < |t.rows| && 0 <= k < |t.columns| && t.columns[k] != AccessDate && t.columns[k] != DayOfWeek ==>
      dated.rows[j][k] == t.rows[j][k]
    ensures Anonymize(dated).Success? <==>
      && Locate(t.columns, CdsId).Success?
      && TextCells(Column(t, Locate(t.columns, CdsId).value), CdsId).Success?
      && (forall n :: n in IdentityColumns ==> n in t.columns)
  {
    if Locate(t.columns, CdsId).Success? || Locate(dated.columns, CdsId).Success? {
      var kc := SameCodesAfterDates(t, dated);
    }
    IdentityDated(t.columns, dated.columns);
  }

  /** `fix_dates` adds at most `Day Of Week`, so the identity columns are there after it
      exactly when they were there before. */
  lemma IdentityDated(before: seq<string>, after: seq<string>)
    requires after == before || after == before + [DayOfWeek]
    ensures (forall n :: n in IdentityColumns ==> n in after) <==> (forall n :: n in IdentityColumns ==> n in before)
  {
    var ln, fn, id := IdentityColumns[0], IdentityColumns[1], IdentityColumns[2];
    assert ln in after <==> ln in before;
    assert fn in after <==> fn in before;
    assert id in after <==> id in before;
    assert forall n :: n in IdentityColumns ==> n == ln || n == fn || n == id;
  }

  /** A table returned by `clean_and_validate_df` is the gated export's rows as cleaned:
      each returned row is a gated row with its parsed date, weekday name and category
      code, and every gated row appears so. */
  lemma CleanAndValidateRows(raw: Table, baseline: Option<seq<string>>)
    requires WellFormed(raw)
    ensures CleanAndValidate(raw, baseline).Success? && CleanAndValidate(raw, baseline).value.0.Some? ==>
      var g := Gated(raw);
      && Locate(g.columns, AccessDate).Success? && Locate(g.columns, CdsId).Success?
      && ToDates(Column(g, Locate(g.columns, AccessDate).value)).Success?
      && TextCells(Column(g, Locate(g.columns, CdsId).value), CdsId).Success?
      && RowsCleanedFrom(g, ToDates(Column(g, Locate(g.columns, AccessDate).value)).value,
           CategoryCodes(TextCells(Column(g, Locate(g.columns, CdsId).value), CdsId).value),
           CleanAndValidate(raw, baseline).value.0.value)
  {
    if CleanAndValidate(raw, baseline).Success? && CleanAndValidate(raw, baseline).value.0.Some? {
      var g := Gated(raw);
      assert CleanGated(g).Success? && CleanAndValidate(raw, baseline).value.0.value == CleanGated(g).value;
      CleanGatedRows(g);
    }
  }

  /** A passed pipeline run is `fix_dates`, `anonymize` and `count_one_swipe_per_day`,
      each succeeding on the previous one's table. */
  lemma GatedSteps(t: Table)
    requires WellFormed(t) && NullFree(t) && CategoryUsed !in t.columns
    requires CleanGated(t).Success?
    ensures FixDates(t).Success? && Anonymize(FixDates(t).value).Success?
    ensures CountOneSwipePerDay(Anonymize(FixDates(t).value).value).Success?
    ensures CleanGated(t).value == CountOneSwipePerDay(Anonymize(FixDates(t).value).value).value
  {
    LabelsDistinct();
  }

  /** The table `fix_dates` leaves and the dates it parsed. */
  lemma DatedSteps(t: Table) returns (dated: Table, dates: seq<Option<Dates.Date>>)
    requires WellFormed(t) && FixDates(t).Success?
    ensures dated == FixDates(t).value
    ensures Locate(t.columns, AccessDate).Success?
    ensures ToDates(Column(t, Locate(t.columns, AccessDate).value)).Success?
    ensures dates == ToDates(Column(t, Locate(t.columns, AccessDate).value)).value
    ensures WellFormed(dated) && |dated.rows| == |t.rows| == |dates| && ValidDates(dates)
    ensures forall j, m :: 0 <= j < |dated.rows| && 0 <= m < |dated.columns| && dated.columns[m] == AccessDate ==> dated.rows[j][m] == DateCell(dates[j])
    ensures forall j, m :: 0 <= j < |dated.rows| && 0 <= m < |dated.columns| && dated.columns[m] == DayOfWeek ==> dated.rows[j][m] == NameCell(dates[j])
    ensures forall j :: 0 <= j < |t.rows| ==> RowFrom(t.columns, t.rows[j], dated.columns, dated.rows[j], {AccessDate, DayOfWeek})
    ensures dated.columns == t.columns || dated.columns == t.columns + [DayOfWeek]
    ensures forall j, k :: 0 <= j < |t.rows| && 0 <= k < |t.columns| && t.columns[k] != AccessDate && t.columns[k] != DayOfWeek ==>
      dated.rows[j][k] == t.rows[j][k]
  {
    dated := FixDates(t).value;
    FixDatesCells(t);
    dates := ToDates(Column(t, Locate(t.columns, AccessDate).value)).value;
    DatedFrom(t, dated);
  }

  /** The table `anonymize` leaves and the codes it gave. */
  lemma AnonSteps(dated: Table) returns (anon: Table, codes: seq<int>)
    requires WellFormed(dated) && Anonymize(dated).Success?
    ensures anon == Anonymize(dated).value
    ensures Locate(dated.columns, CdsId).Success?
    ensures TextCells(Column(dated, Locate(dated.columns, CdsId).value), CdsId).Success?
    ensures codes == CategoryCodes(TextCells(Column(dated, Locate(dated.columns, CdsId).value), CdsId).value)
    ensures WellFormed(anon) && |anon.rows| == |dated.rows| == |codes|
    ensures forall j, m :: 0 <= j < |anon.rows| && 0 <= m < |anon.columns| && anon.columns[m] == AnonId ==> anon.rows[j][m] == Some(Code(codes[j]))
    ensures forall j :: 0 <= j < |anon.rows| ==> RowFrom(dated.columns, dated.rows[j], anon.columns, anon.rows[j], {AnonId})
  {
    anon := Anonymize(dated).value;
    codes := CategoryCodes(TextCells(Column(dated, Locate(dated.columns, CdsId).value), CdsId).value);
  }

  /** Deduplicating a projection keeps exactly its rows, so the cleaned rows are the
      projected gated rows. */
  lemma DedupedRows(t: Table, p: Table, r: Table, dates: seq<Option<Dates.Date>>, codes: seq<int>)
    requires |t.rows| == |p.rows| == |dates| == |codes| && ValidDates(dates)
    requires forall j :: 0 <= j < |t.rows| ==> CleanedFrom(t.columns, t.rows[j], dates[j], codes[j], p.columns, p.rows[j])
    requires r.columns == p.columns
    requires forall row :: row in r.rows <==> row in p.rows
    ensures RowsCleanedFrom(t, dates, codes, r)
  {
    forall i | 0 <= i < |r.rows|
      ensures exists j :: 0 <= j < |t.rows| && CleanedFrom(t.columns, t.rows[j], dates[j], codes[j], r.columns, r.rows[i])
    {
      assert r.rows[i] in p.rows;
      var j :| 0 <= j < |p.rows| && p.rows[j] == r.rows[i];
      assert CleanedFrom(t.columns, t.rows[j], dates[j], codes[j], p.columns, p.rows[j]);
    }
    forall j | 0 <= j < |t.rows|
      ensures exists i :: 0 <= i < |r.rows| && CleanedFrom(t.columns, t.rows[j], dates[j], codes[j], r.columns, r.rows[i])
    {
      assert p.rows[j] in p.rows;
      var i :| 0 <= i < |r.rows| && r.rows[i] == p.rows[j];
      assert CleanedFrom(t.columns, t.rows[j], dates[j], codes[j], r.columns, r.rows[i]);
    }
  }

  /** Every gated row, followed through `anonymize` and the column drop. */
  lemma ProjectedAll(t: Table, dated: Table, anon: Table, dates: seq<Option<Dates.Date>>, codes: seq<int>)
    requires WellFormed(t) && WellFormed(dated) && WellFormed(anon)
    requires |t.rows| == |dated.rows| == |anon.rows| == |dates| == |codes|
    requires ValidDates(dates)
    requires forall j, m :: 0 <= j < |dated.rows| && 0 <= m < |dated.columns| && dated.columns[m] == AccessDate ==> dated.rows[j][m] == DateCell(dates[j])
    requires forall j, m :: 0 <= j < |dated.rows| && 0 <= m < |dated.columns| && dated.columns[m] == DayOfWeek ==> dated.rows[j][m] == NameCell(dates[j])
    requires forall j :: 0 <= j < |t.rows| ==> RowFrom(t.columns, t.rows[j], dated.columns, dated.rows[j], {AccessDate, DayOfWeek})
    requires forall j, m :: 0 <= j < |anon.rows| && 0 <= m < |anon.columns| && anon.columns[m] == AnonId ==> anon.rows[j][m] == Some(Code(codes[j]))
    requires forall j :: 0 <= j < |anon.rows| ==> RowFrom(dated.columns, dated.rows[j], anon.columns, anon.rows[j], {AnonId})
    requires AnonId != AccessDate && AnonId != DayOfWeek
    ensures var p := DropColumns(anon, Labels(SubDayColumns));
      forall j :: 0 <= j < |t.rows| ==> CleanedFrom(t.columns, t.rows[j], dates[j], codes[j], p.columns, p.rows[j])
  {
    var p := DropColumns(anon, Labels(SubDayColumns));
    forall j | 0 <= j < |t.rows|
      ensures CleanedFrom(t.columns, t.rows[j], dates[j], codes[j], p.columns, p.rows[j])
    {
      ProjectedCleaned(t, dated, anon, Labels(SubDayColumns), dates, codes, j);
    }
  }

  /** `fix_dates` rewrites no cell outside the date columns. */
  lemma DatedFrom(t: Table, dated: Table)
    requires WellFormed(t) && FixDates(t).Success? && dated == FixDates(t).value
    ensures forall j :: 0 <= j < |t.rows| ==> RowFrom(t.columns, t.rows[j], dated.columns, dated.rows[j], {AccessDate, DayOfWeek})
  {
    forall j, m | 0 <= j < |t.rows| && 0 <= m < |dated.columns| && dated.columns[m] !in {AccessDate, DayOfWeek}
      ensures CellFrom(t.columns, t.rows[j], dated.columns[m], dated.rows[j][m])
    {
      assert t.columns[m] == dated.columns[m] && t.rows[j][m] == dated.rows[j][m];
    }
  }

  /** The `CDSID` column `anonymize` reads after `fix_dates` is the gated table's. */
  lemma SameCodesAfterDates(t: Table, dated: Table) returns (kc: nat)
    requires WellFormed(t) && WellFormed(dated) && |dated.rows| == |t.rows|
    requires dated.columns == t.columns || dated.columns == t.columns + [DayOfWeek]
    requires forall j, k :: 0 <= j < |t.rows| && 0 <= k < |t.columns| && t.columns[k] != AccessDate && t.columns[k] != DayOfWeek ==>
      dated.rows[j][k] == t.rows[j][k]
    requires Locate(t.columns, CdsId).Success? || Locate(dated.columns, CdsId).Success?
    ensures Locate(t.columns, CdsId) == Success(kc) && Locate(dated.columns, CdsId) == Success(kc)
    ensures Column(dated, kc) == Column(t, kc)
  {
    LabelsDistinct();
    var n := |t.columns|;
    assert dated.columns[..n] == t.columns;
    assert multiset(dated.columns)[CdsId] == multiset(t.columns)[CdsId];
    kc := Locate(dated.columns, CdsId).value;
    assert CdsId in dated.columns[..n];
    Seqs.FirstIndexPrefix(dated.columns, n, CdsId);
    var a, b := Column(dated, kc), Column(t, kc);
    assert forall j :: 0 <= j < |a| ==> a[j] == b[j];
  }

  /** One gated row, followed through `anonymize` and the column drop of
      `count_one_swipe_per_day`. */
  lemma ProjectedCleaned(t: Table, dated: Table, anon: Table, labels: set<string>, dates: seq<Option<Dates.Date>>, codes: seq<int>, j: nat)
    requires WellFormed(t) && WellFormed(dated) && WellFormed(anon)
    requires j < |t.rows| == |dated.rows| == |anon.rows| == |dates| == |codes|
    requires ValidDates(dates)
    requires forall m :: 0 <= m < |dated.columns| && dated.columns[m] == AccessDate ==> dated.rows[j][m] == DateCell(dates[j])
    requires forall m :: 0 <= m < |dated.columns| && dated.columns[m] == DayOfWeek ==> dated.rows[j][m] == NameCell(dates[j])
    requires RowFrom(t.columns, t.rows[j], dated.columns, dated.rows[j], {AccessDate, DayOfWeek})
    requires forall m :: 0 <= m < |anon.columns| && anon.columns[m] == AnonId ==> anon.rows[j][m] == Some(Code(codes[j]))
    requires RowFrom(dated.columns, dated.rows[j], anon.columns, anon.rows[j], {AnonId})
    requires AnonId != AccessDate && AnonId != DayOfWeek
    ensures CleanedFrom(t.columns, t.rows[j], dates[j], codes[j], DropColumns(anon, labels).columns, DropColumns(anon, labels).rows[j])
  {
    var p := DropColumns(anon, labels);
    var row := p.rows[j];
    DropRowFrom(anon, labels, j);
    forall m | 0 <= m < |p.columns| && p.columns[m] in {AccessDate, DayOfWeek, AnonId}
      ensures p.columns[m] == AccessDate ==> row[m] == DateCell(dates[j])
      ensures p.columns[m] == DayOfWeek ==> row[m] == NameCell(dates[j])
      ensures p.columns[m] == AnonId ==> row[m] == Some(Code(codes[j]))
    {
      assert CellFrom(anon.columns, anon.rows[j], p.columns[m], row[m]);
      var k :| 0 <= k < |anon.columns| && k < |anon.rows[j]| && anon.columns[k] == p.columns[m] && anon.rows[j][k] == row[m];
      if p.columns[m] != AnonId {
        assert CellFrom(dated.columns, dated.rows[j], anon.columns[k], anon.rows[j][k]);
      }
    }
    RowFromTrans(dated.columns, dated.rows[j], anon.columns, anon.rows[j], p.columns, row, {}, {AnonId});
    RowFromTrans(t.columns, t.rows[j], dated.columns, dated.rows[j], p.columns, row, {} + {AnonId}, {AccessDate, DayOfWeek});
    assert {} + {AnonId} + {AccessDate, DayOfWeek} == {AccessDate, DayOfWeek, AnonId};
  }
}

=== FILE: dates.dfy ===
/** Calendar dates as Python's `datetime.date` sees them (proleptic Gregorian calendar,
    years 1..9999), the weekday names of `calendar.day_name`, and the strict
    `'%d/%m/%Y'` parser that `pd.to_datetime(..., format=date_format)` applies. */
module Dates {
  import opened Wrappers

  datatype Date = Date(year: int, month: int, day: int)

  predicate IsLeap(y: int) {
    y % 4 == 0 && (y % 100 != 0 || y % 400 == 0)
  }

  function DaysInMonth(y: int, m: int): int
    requires 1 <= m <= 12
  {
    if m == 2 then (if IsLeap(y) then 29 else 28)
    else if m == 4 || m == 6 || m == 9 || m == 11 then 30
    else 31
  }

  function DaysInYear(y: int): int {
    if IsLeap(y) then 366 else 365
  }

  /** A date `datetime.date` accepts. */
  predicate Valid(d: Date) {
    && 1 <= d.year <= 9999
    && 1 <= d.month <= 12
    && 1 <= d.day <= DaysInMonth(d.year, d.month)
  }

  /** Python's date ordering: by year, then month, then day. */
  predicate Before(a: Date, b: Date) {
    || a.year < b.year
    || (a.year == b.year && a.month < b.month)
    || (a.year == b.year && a.month == b.month && a.day < b.day)
  }

  predicate AtMost(a: Date, b: Date) {
    a == b || Before(a, b)
  }

  /** Days in the years before year `y`. */
  function DaysBeforeYear(y: int): int
    requires y >= 1
  {
    var p := y - 1;
    p * 365 + p / 4 - p / 100 + p / 400
  }

  /** Days in the months of year `y` before month `m`; `m == 13` gives the whole year. */
  function DaysBeforeMonth(y: int, m: int): int
    requires 1 <= m <= 13
    decreases m
  {
    if m == 1 then 0 else DaysBeforeMonth(y, m - 1) + DaysInMonth(y, m - 1)
  }

  /** `date.toordinal()`: 0001-01-01 is day 1. */
  function Ordinal(d: Date): int
    requires Valid(d)
  {
    DaysBeforeYear(d.year) + DaysBeforeMonth(d.year, d.month) + d.day
  }

  const DayNames: seq<string> :=
    ["Monday", "Tuesday", "Wednesday", "Thursday", "Friday", "Saturday", "Sunday"]

  /** `date.weekday()`: Monday is 0, Sunday is 6. */
  function WeekdayIndex(d: Date): (w: nat)
    requires Valid(d)
    ensures w < 7
  {
    (Ordinal(d) + 6) % 7
  }

  /** `Timestamp.day_name()`, equal to `calendar.day_name[date.weekday()]`. */
  function DayName(d: Date): string
    requires Valid(d)
  {
    DayNames[WeekdayIndex(d)]
  }

  predicate IsWeekend(d: Date)
    requires Valid(d)
  {
    WeekdayIndex(d) >= 5
  }

  /** The calendar day after `d`. */
  function NextDay(d: Date): (e: Date)
    requires Valid(d)
  {
    if d.day < DaysInMonth(d.year, d.month) then Date(d.year, d.month, d.day + 1)
    else if d.month < 12 then Date(d.year, d.month + 1, 1)
    else Date(d.year + 1, 1, 1)
  }

  lemma DivStep4(p: int)
    requires p >= 0
    ensures (p + 1) / 4 == p / 4 + (if (p + 1) % 4 == 0 then 1 else 0)
  {
  }

  lemma DivStep100(p: int)
    requires p >= 0
    ensures (p + 1) / 100 == p / 100 + (if (p + 1) % 100 == 0 then 1 else 0)
  {
  }

  lemma DivStep400(p: int)
    requires p >= 0
    ensures (p + 1) / 400 == p / 400 + (if (p + 1) % 400 == 0 then 1 else 0)
  {
  }

  lemma LeapDivisors(y: int)
    ensures y % 100 == 0 ==> y % 4 == 0
    ensures y % 400 == 0 ==> y % 100 == 0
  {
  }

  lemma YearLength(y: int)
    requires y >= 1
    ensures DaysBeforeYear(y + 1) == DaysBeforeYear(y) + DaysInYear(y)
  {
    var p := y - 1;
    DivStep4(p);
    DivStep100(p);
    DivStep400(p);
    LeapDivisors(y);
    assert DaysBeforeYear(y + 1) == (p + 1) * 365 + (p + 1) / 4 - (p + 1) / 100 + (p + 1) / 400;
    assert (p + 1) * 365 == p * 365 + 365;
  }

  lemma {:induction false} MonthsFillYear(y: int, m: int)
    requires 1 <= m <= 13
    ensures 0 <= DaysBeforeMonth(y, m) <= DaysBeforeMonth(y, 13) == DaysInYear(y)
    decreases 13 - m
  {
    if m < 13 {
      MonthsFillYear(y, m + 1);
    }
  }

  lemma {:induction false} MonthsMonotone(y: int, m: int, n: int)
    requires 1 <= m <= n <= 13
    ensures DaysBeforeMonth(y, m) <= DaysBeforeMonth(y, n)
    decreases n - m
  {
    if m < n {
      MonthsMonotone(y, m, n - 1);
    }
  }

  lemma {:induction false} YearsMonotone(y: int, z: int)
    requires 1 <= y <= z
    ensures DaysBeforeYear(y) + DaysInYear(y) * (if y < z then 1 else 0) <= DaysBeforeYear(z)
    decreases z - y
  {
    if y < z {
      YearLength(y);
      if y + 1 < z {
        YearsMonotone(y + 1, z);
      }
    }
  }

  /** The day number of a date lies within its year's range. */
  lemma OrdinalInYear(d: Date)
    requires Valid(d)
    ensures DaysBeforeYear(d.year) < Ordinal(d) <= DaysBeforeYear(d.year) + DaysInYear(d.year)
  {
    MonthsMonotone(d.year, d.month + 1, 13);
    MonthsFillYear(d.year, 13);
  }

  /** Day numbers respect the calendar order, in both directions. */
  lemma BeforeIffOrdinalLess(a: Date, b: Date)
    requires Valid(a) && Valid(b)
    ensures Before(a, b) <==> Ordinal(a) < Ordinal(b)
  {
    if a.year < b.year {
      OrdinalInYear(a);
      OrdinalInYear(b);
      YearsMonotone(a.year, b.year);
    } else if b.year < a.year {
      OrdinalInYear(a);
      OrdinalInYear(b);
      YearsMonotone(b.year, a.year);
    } else if a.month < b.month {
      MonthsMonotone(a.year, a.month + 1, b.month);
    } else if b.month < a.month {
      MonthsMonotone(a.year, b.month + 1, a.month);
    }
  }

  /** Distinct valid dates have distinct day numbers. */
  lemma OrdinalInjective(a: Date, b: Date)
    requires Valid(a) && Valid(b)
    requires Ordinal(a) == Ordinal(b)
    ensures a == b
  {
    BeforeIffOrdinalLess(a, b);
    BeforeIffOrdinalLess(b, a);
  }

  /** The next day is one day number later and one weekday later. */
  lemma NextDayStep(d: Date)
    requires Valid(d) && (d.year < 9999 || d.month < 12 || d.day < 31)
    ensures Valid(NextDay(d))
    ensures Ordinal(NextDay(d)) == Ordinal(d) + 1
    ensures WeekdayIndex(NextDay(d)) == (WeekdayIndex(d) + 1) % 7
  {
    if d.day == DaysInMonth(d.year, d.month) && d.month == 12 {
      NextYearStep(d);
    }
    WeekdayStep(Ordinal(d));
  }

  /** Across a year boundary: 31 December is followed by 1 January, one day later. */
  lemma NextYearStep(d: Date)
    requires Valid(d) && d.year < 9999 && d.month == 12 && d.day == 31
    ensures Ordinal(Date(d.year + 1, 1, 1)) == Ordinal(d) + 1
  {
    YearLength(d.year);
    MonthsFillYear(d.year, 13);
    assert DaysBeforeMonth(d.year, 13) == DaysBeforeMonth(d.year, 12) + 31;
  }

  lemma WeekdayStep(n: int)
    ensures (n + 1 + 6) % 7 == ((n + 6) % 7 + 1) % 7
  {
  }

  lemma KnownWeekdays()
    ensures DayName(Date(1, 1, 1)) == "Monday"
    ensures DayName(Date(2022, 11, 3)) == "Thursday"
    ensures DayName(Date(2022, 12, 17)) == "Saturday"
    ensures DayName(Date(2023, 1, 6)) == "Friday"
  {
  }

  // ---- '%d/%m/%Y' ----

  predicate IsDigit(c: char) {
    '0' <= c <= '9'
  }

  function DigitValue(c: char): int
    requires IsDigit(c)
  {
    c as int - '0' as int
  }

  function DigitsValue(s: string): (n: int)
    requires forall i :: 0 <= i < |s| ==> IsDigit(s[i])
    ensures n >= 0
  {
    if |s| == 0 then 0 else DigitsValue(s[..|s| - 1]) * 10 + DigitValue(s[|s| - 1])
  }

  /** The `%d` directive: `3[01]|[12]\d|0[1-9]|[1-9]| [1-9]`. */
  function DayField(p: string): (r: Option<int>)
    ensures r.Some? ==> 1 <= r.value <= 31
  {
    if |p| == 1 then
      (if '1' <= p[0] <= '9' then Some(DigitValue(p[0])) else None)
    else if |p| == 2 then
      if p[0] == ' ' && '1' <= p[1] <= '9' then Some(DigitValue(p[1]))
      else if p[0] == '0' && '1' <= p[1] <= '9' then Some(DigitValue(p[1]))
      else if (p[0] == '1' || p[0] == '2') && IsDigit(p[1]) then Some(DigitValue(p[0]) * 10 + DigitValue(p[1]))
      else if p[0] == '3' && (p[1] == '0' || p[1] == '1') then Some(30 + DigitValue(p[1]))
      else None
    else None
  }

  /** The `%m` directive: `1[0-2]|0[1-9]|[1-9]`. */
  function MonthField(p: string): (r: Option<int>)
    ensures r.Some? ==> 1 <= r.value <= 12
  {
    if |p| == 1 then
      (if '1' <= p[0] <= '9' then Some(DigitValue(p[0])) else None)
    else if |p| == 2 then
      if p[0] == '0' && '1' <= p[1] <= '9' then Some(DigitValue(p[1]))
      else if p[0] == '1' && '0' <= p[1] <= '2' then Some(10 + DigitValue(p[1]))
      else None
    else None
  }

  lemma {:induction false} DigitsBound(s: string)
    requires forall i :: 0 <= i < |s| ==> IsDigit(s[i])
    ensures DigitsValue(s) < Pow10(|s|)
  {
    if |s| > 0 {
      DigitsBound(s[..|s| - 1]);
    }
  }

  /** The `%Y` directive: exactly four digits. */
  function YearField(p: string): (r: Option<int>)
    ensures r.Some? ==> 0 <= r.value <= 9999
  {
    if |p| == 4 && IsDigit(p[0]) && IsDigit(p[1]) && IsDigit(p[2]) && IsDigit(p[3]) then
      DigitsBound(p);
      Some(DigitsValue(p))
    else None
  }

  /** Strict `'%d/%m/%Y'` parsing: the whole text must match, and the fields must name a
      real date (`datetime` rejects year 0 and days past the month's end). */
  function ParseDate(s: string): (r: Option<Date>)
    ensures r.Some? ==> Valid(r.value)
    ensures r.Some? ==> 8 <= |s| <= 10 && s[|s| - 5] == '/'
  {
    if |s| < 8 || |s| > 10 then None
    else
      var dl := if s[1] == '/' then 1 else 2;
      var ml := |s| - 6 - dl;
      if ml < 1 || ml > 2 || s[dl] != '/' || s[dl + 1 + ml] != '/' then None
      else
        match (DayField(s[..dl]), MonthField(s[dl + 1..dl + 1 + ml]), YearField(s[dl + ml + 2..]))
        case (Some(d), Some(m), Some(y)) =>
          var date := Date(y, m, d);
          if Valid(date) then Some(date) else None
        case _ => None
  }

  // ---- rendering, the partner of parsing ----

  function DigitChar(n: int): (c: char)
    requires 0 <= n <= 9
    ensures IsDigit(c) && DigitValue(c) == n
  {
    ('0' as int + n) as char
  }

  /** Zero-padded decimal rendering of `n` in `width` digits. */
  function Padded(n: int, width: nat): (s: string)
    requires 0 <= n
    ensures |s| == width
    ensures forall i :: 0 <= i < |s| ==> IsDigit(s[i])
  {
    if width == 0 then [] else Padded(n / 10, width - 1) + [DigitChar(n % 10)]
  }

  lemma {:induction false} PaddedValue(n: int, width: nat, bound: int)
    requires 0 <= n < bound
    requires bound == Pow10(width)
    ensures DigitsValue(Padded(n, width)) == n
    decreases width
  {
    if width > 0 {
      var s := Padded(n, width);
      assert s[..|s| - 1] == Padded(n / 10, width - 1);
      PaddedValue(n / 10, width - 1, Pow10(width - 1));
    }
  }

  function Pow10(k: nat): (p: int)
    ensures p >= 1
  {
    if k == 0 then 1 else 10 * Pow10(k - 1)
  }

  /** `date.strftime('%d/%m/%Y')`. */
  function Format(d: Date): (s: string)
    requires Valid(d)
    ensures |s| == 10
  {
    Padded(d.day, 2) + "/" + Padded(d.month, 2) + "/" + Padded(d.year, 4)
  }

  lemma PaddedTwo(n: int)
    requires 0 <= n < 100
    ensures Padded(n, 2) == [DigitChar(n / 10), DigitChar(n % 10)]
  {
    assert Padded(n / 10, 1) == Padded(n / 10 / 10, 0) + [DigitChar(n / 10 % 10)];
  }

  lemma DayFieldPadded(d: int)
    requires 1 <= d <= 31
    ensures DayField(Padded(d, 2)) == Some(d)
  {
    PaddedTwo(d);
  }

  lemma MonthFieldPadded(m: int)
    requires 1 <= m <= 12
    ensures MonthField(Padded(m, 2)) == Some(m)
  {
    PaddedTwo(m);
  }

  lemma YearFieldPadded(y: int)
    requires 0 <= y <= 9999
    ensures YearField(Padded(y, 4)) == Some(y)
  {
    PaddedValue(y, 4, 10000);
  }

  /** Every valid date survives rendering and strict parsing unchanged. */
  lemma ParseFormat(d: Date)
    requires Valid(d)
    ensures ParseDate(Format(d)) == Some(d)
  {
    var s := Format(d);
    var dd := Padded(d.day, 2);
    var mm := Padded(d.month, 2);
    var yy := Padded(d.year, 4);
    DayFieldPadded(d.day);
    MonthFieldPadded(d.month);
    YearFieldPadded(d.year);
    assert s[..2] == dd;
    assert s[3..5] == mm;
    assert s[6..] == yy;
    assert s[1] != '/' && s[2] == '/' && s[5] == '/';
  }

  // ---- every text the parser accepts ----

  /** The texts `%d` reads as day `n`: two digits, and below 10 also one digit or a
      space and one digit. */
  function DaySpellings(n: int): set<string>
    requires 1 <= n <= 31
  {
    if n < 10 then {Padded(n, 2), [DigitChar(n)], [' ', DigitChar(n)]} else {Padded(n, 2)}
  }

  /** The texts `%m` reads as month `n`: two digits, and below 10 also one digit. */
  function MonthSpellings(n: int): set<string>
    requires 1 <= n <= 12
  {
    if n < 10 then {Padded(n, 2), [DigitChar(n)]} else {Padded(n, 2)}
  }

  /** Every text that `'%d/%m/%Y'` reads as `d`. */
  function Spellings(d: Date): set<string>
    requires Valid(d)
  {
    set dp, mp | dp in DaySpellings(d.day) && mp in MonthSpellings(d.month) :: dp + "/" + mp + "/" + Padded(d.year, 4)
  }

  lemma DigitRoundTrip(c: char)
    requires IsDigit(c)
    ensures DigitChar(DigitValue(c)) == c
  {
  }

  /** A run of digits is the padded rendering of its own value. */
  lemma {:induction false} PaddedDigits(p: string)
    requires forall i :: 0 <= i < |p| ==> IsDigit(p[i])
    ensures Padded(DigitsValue(p), |p|) == p
  {
    if |p| > 0 {
      var n := |p| - 1;
      var v := DigitsValue(p);
      PaddedDigits(p[..n]);
      assert v / 10 == DigitsValue(p[..n]) && v % 10 == DigitValue(p[n]);
      DigitRoundTrip(p[n]);
      assert p == p[..n] + [p[n]];
    }
  }

  lemma DayFieldSpellings(p: string, n: int)
    requires 1 <= n <= 31
    ensures DayField(p) == Some(n) <==> p in DaySpellings(n)
  {
    PaddedTwo(n);
    if DayField(p) == Some(n) {
      DigitRoundTrip(p[|p| - 1]);
      if |p| == 2 && p[0] != ' ' {
        DigitRoundTrip(p[0]);
        assert p == [p[0], p[1]];
        assert p == Padded(n, 2);
      } else if |p| == 2 {
        assert p == [' ', DigitChar(n)];
      } else {
        assert p == [DigitChar(n)];
      }
    }
    if p in DaySpellings(n) {
      if p == Padded(n, 2) {
        DayFieldPadded(n);
      } else {
        assert n < 10 && (p == [DigitChar(n)] || p == [' ', DigitChar(n)]);
      }
    }
  }

  lemma MonthFieldSpellings(p: string, n: int)
    requires 1 <= n <= 12
    ensures MonthField(p) == Some(n) <==> p in MonthSpellings(n)
  {
    PaddedTwo(n);
    if MonthField(p) == Some(n) {
      DigitRoundTrip(p[|p| - 1]);
      if |p| == 2 {
        DigitRoundTrip(p[0]);
        assert p == [p[0], p[1]];
        assert p == Padded(n, 2);
      } else {
        assert p == [DigitChar(n)];
      }
    }
    if p in MonthSpellings(n) {
      if p == Padded(n, 2) {
        MonthFieldPadded(n);
      } else {
        assert n < 10 && p == [DigitChar(n)];
      }
    }
  }

  lemma YearFieldSpellings(p: string, y: int)
    requires 0 <= y <= 9999
    ensures YearField(p) == Some(y) <==> p == Padded(y, 4)
  {
    if YearField(p) == Some(y) {
      PaddedDigits(p);
    }
    if p == Padded(y, 4) {
      YearFieldPadded(y);
    }
  }

  /** Strict parsing reads `s` as `d` exactly when `s` is one of `d`'s spellings:
      which date a text yields, and which texts are rejected. */
  lemma ParseSpellings(s: string, d: Date)
    ensures ParseDate(s) == Some(d) <==> Valid(d) && s in Spellings(d)
  {
    if ParseDate(s) == Some(d) {
      ParsedIsSpelling(s, d);
    }
    if Valid(d) && s in Spellings(d) {
      SpellingIsParsed(s, d);
    }
  }

  lemma ParsedIsSpelling(s: string, d: Date)
    requires ParseDate(s) == Some(d)
    ensures Valid(d) && s in Spellings(d)
  {
    var dl := if s[1] == '/' then 1 else 2;
    var ml := |s| - 6 - dl;
    var dp, mp, yp := s[..dl], s[dl + 1..dl + 1 + ml], s[dl + ml + 2..];
    DayFieldSpellings(dp, d.day);
    MonthFieldSpellings(mp, d.month);
    YearFieldSpellings(yp, d.year);
    assert s == dp + "/" + mp + "/" + yp;
  }

  lemma SpellingIsParsed(s: string, d: Date)
    requires Valid(d) && s in Spellings(d)
    ensures ParseDate(s) == Some(d)
  {
    var dp, mp :| dp in DaySpellings(d.day) && mp in MonthSpellings(d.month) && s == dp + "/" + mp + "/" + Padded(d.year, 4);
    PaddedTwo(d.day);
    DayFieldSpellings(dp, d.day);
    MonthFieldSpellings(mp, d.month);
    YearFieldSpellings(Padded(d.year, 4), d.year);
    JoinedFields(dp, mp, Padded(d.year, 4));
  }

  /** Text joined from a day, a month and a year field parses field by field. */
  lemma JoinedFields(dp: string, mp: string, yp: string)
    requires 1 <= |dp| <= 2 && 1 <= |mp| <= 2 && |yp| == 4 && (|dp| == 2 ==> dp[1] != '/')
    requires DayField(dp).Some? && MonthField(mp).Some? && YearField(yp).Some?
    requires Valid(Date(YearField(yp).value, MonthField(mp).value, DayField(dp).value))
    ensures ParseDate(dp + "/" + mp + "/" + yp) == Some(Date(YearField(yp).value, MonthField(mp).value, DayField(dp).value))
  {
    var s := dp + "/" + mp + "/" + yp;
    var dl, ml := |dp|, |mp|;
    assert s[1] == '/' <==> dl == 1;
    assert s[dl] == '/' && s[dl + 1 + ml] == '/';
    assert s[..dl] == dp;
    assert s[dl + 1..dl + 1 + ml] == mp;
    assert s[dl + ml + 2..] == yp;
  }
}

=== FILE: filters.dfy ===
/** The row filters applied to cleaned tables before charting: weekend removal, the
    fixed holiday window, person-type inclusion (`utils.py`) and overlap-date removal
    (`main.py`). Each removes exactly the rows matching its condition and keeps the rest
    in order; the first three pass a missing table (`None`) through. */
module Filters {
  import opened Wrappers
  import Seqs
  import Dates
  import opened Tables
  import Cleaning

  /** The cell at position `k`, or missing when the row is too short (never the case
      in a well-formed table). */
  function At(row: Row, k: nat): Cell {
    if k < |row| then row[k] else None
  }

  // ---- weekends ----

  predicate WeekendName(c: Cell) {
    c == Some(Text("Saturday")) || c == Some(Text("Sunday"))
  }

  function NotWeekend(k: nat): Row -> bool {
    row => !WeekendName(At(row, k))
  }

  /** `remove_weekend_data`: drops the rows whose `Day Of Week` is Saturday or Sunday. */
  function RemoveWeekendData(df: Option<Table>): (r: Result<Option<Table>, Error>)
    requires df.Some? ==> WellFormed(df.value)
    ensures df.None? ==> r == Success(None)
    ensures df.Some? ==> (r.Success? <==> Locate(df.value.columns, Cleaning.DayOfWeek).Success?)
    ensures df.Some? && r.Success? ==> r.value.Some?
    ensures df.Some? && r.Success? ==>
      var k := Locate(df.value.columns, Cleaning.DayOfWeek).value;
      && WellFormed(r.value.value)
      && r.value.value.columns == df.value.columns
      && KeepsExactly(df.value.rows, r.value.value.rows, NotWeekend(k))
      && (forall row :: row in r.value.value.rows <==> row in df.value.rows && !WeekendName(row[k]))
  {
    match df
    case None => Success(None)
    case Some(t) =>
      var k :- Locate(t.columns, Cleaning.DayOfWeek);
      Success(Some(SelectRows(t, NotWeekend(k))))
  }

  /** On a table whose weekday names agree with its dates, the weekend rows by name are
      exactly the rows whose date falls on a Saturday or Sunday. */
  lemma WeekendByName(d: Dates.Date)
    requires Dates.Valid(d)
    ensures WeekendName(Some(Text(Dates.DayName(d)))) <==> Dates.IsWeekend(d)
  {
    var w := Dates.WeekdayIndex(d);
    assert Dates.DayNames[w] == Dates.DayName(d);
  }

  // ---- the holiday window ----

  const HolidayStart := Dates.Date(2022, 12, 17)
  const HolidayEnd := Dates.Date(2023, 1, 6)

  predicate InHoliday(c: Cell) {
    c.Some? && c.value.Day? && Dates.AtMost(HolidayStart, c.value.date) && Dates.AtMost(c.value.date, HolidayEnd)
  }

  /** The window is 17-31 December 2022 and 1-6 January 2023. */
  lemma HolidayWindow(d: Dates.Date)
    requires Dates.Valid(d)
    ensures InHoliday(Some(Day(d))) <==>
      (d.year == 2022 && d.month == 12 && d.day >= 17) || (d.year == 2023 && d.month == 1 && d.day <= 6)
  {
  }

  function NotHoliday(k: nat): Row -> bool {
    row => !InHoliday(At(row, k))
  }

  /** `remove_holiday_data`: drops the rows dated 2022-12-17 to 2023-01-06 inclusive;
      rows without a date (NaT compares false) stay. */
  function RemoveHolidayData(df: Option<Table>): (r: Result<Option<Table>, Error>)
    requires df.Some? ==> WellFormed(df.value)
    ensures df.None? ==> r == Success(None)
    ensures df.Some? ==> (r.Success? <==> DateColumn(df.value, Cleaning.AccessDate).Success?)
    ensures df.Some? && r.Success? ==> r.value.Some?
    ensures df.Some? && r.Success? ==>
      var k := Locate(df.value.columns, Cleaning.AccessDate).value;
      && WellFormed(r.value.value)
      && r.value.value.columns == df.value.columns
      && KeepsExactly(df.value.rows, r.value.value.rows, NotHoliday(k))
      && (forall row :: row in r.value.value.rows <==> row in df.value.rows && !InHoliday(row[k]))
  {
    match df
    case None => Success(None)
    case Some(t) =>
      var _ :- DateColumn(t, Cleaning.AccessDate);
      var k := Locate(t.columns, Cleaning.AccessDate).value;
      Success(Some(SelectRows(t, NotHoliday(k))))
  }

  // ---- person types ----

  /** The row's type is one of `types` that the user did not select. */
  predicate Excluded(c: Cell, options: seq<Value>, types: seq<Value>) {
    c.Some? && c.value in types && c.value !in options
  }

  function Included(k: nat, options: seq<Value>, types: seq<Value>): Row -> bool {
    row => !Excluded(At(row, k), options, types)
  }

  function IsType(k: nat, ty: Value): Row -> bool {
    row => At(row, k) != Some(ty)
  }

  /** The loop of `include_person_type_data`: for each type not among `options`, drop the
      rows of that type. The column is looked up only when some type is dropped. */
  function DropTypes(t: Table, options: seq<Value>, types: seq<Value>): (r: Result<Table, Error>)
    requires WellFormed(t)
    ensures (forall ty :: ty in types ==> ty in options) ==> r == Success(t)
    ensures (exists ty :: ty in types && ty !in options) ==>
      (r.Success? <==> Locate(t.columns, Cleaning.PersonType).Success?)
    ensures (exists ty :: ty in types && ty !in options) && r.Success? ==>
      && WellFormed(r.value)
      && r.value.columns == t.columns
      && r.value.rows == Seqs.Filter(t.rows, Included(Locate(t.columns, Cleaning.PersonType).value, options, types))
    decreases |types|
  {
    if |types| == 0 then Success(t)
    else if types[0] in options then
      assert forall ty :: ty in types[1..] ==> ty in types;
      assert (exists ty :: ty in types && ty !in options) ==> exists ty :: ty in types[1..] && ty !in options;
      var r := DropTypes(t, options, types[1..]);
      assert r.Success? && (exists ty :: ty in types && ty !in options) ==>
        r.value.rows == Seqs.Filter(t.rows, Included(Locate(t.columns, Cleaning.PersonType).value, options, types)) by {
        if r.Success? && (exists ty :: ty in types && ty !in options) {
          var k := Locate(t.columns, Cleaning.PersonType).value;
          SameFilter(t.rows, Included(k, options, types[1..]), Included(k, options, types));
        }
      }
      r
    else
      var k :- Locate(t.columns, Cleaning.PersonType);
      var dropped := SelectRows(t, IsType(k, types[0]));
      var r := DropTypes(dropped, options, types[1..]);
      assert r.Success? ==> r.value.rows == Seqs.Filter(t.rows, Included(k, options, types)) by {
        if r.Success? {
          if exists ty :: ty in types[1..] && ty !in options {
            Seqs.FilterFilter(t.rows, IsType(k, types[0]), Included(k, options, types[1..]), Included(k, options, types));
          } else {
            assert r.value == dropped;
            SameFilter(t.rows, IsType(k, types[0]), Included(k, options, types));
          }
        }
      }
      r
  }

  /** Filters by pointwise-equal conditions agree. */
  lemma {:induction false} SameFilter(s: seq<Row>, p: Row -> bool, q: Row -> bool)
    requires forall x :: p(x) == q(x)
    ensures Seqs.Filter(s, p) == Seqs.Filter(s, q)
  {
    if |s| > 0 {
      SameFilter(s[..|s| - 1], p, q);
    }
  }

  /** `include_person_type_data`: keeps the rows whose type is selected in `options` or
      was never offered in `types`. */
  function IncludePersonTypeData(df: Option<Table>, options: seq<Value>, types: seq<Value>): (r: Result<Option<Table>, Error>)
    requires df.Some? ==> WellFormed(df.value)
    ensures df.None? ==> r == Success(None)
    ensures df.Some? && (forall ty :: ty in types ==> ty in options) ==> r == Success(df)
    ensures df.Some? && (exists ty :: ty in types && ty !in options) ==>
      (r.Success? <==> Locate(df.value.columns, Cleaning.PersonType).Success?)
    ensures df.Some? && (exists ty :: ty in types && ty !in options) && r.Success? ==>
      var k := Locate(df.value.columns, Cleaning.PersonType).value;
      && r.value.Some?
      && WellFormed(r.value.value)
      && r.value.value.columns == df.value.columns
      && KeepsExactly(df.value.rows, r.value.value.rows, Included(k, options, types))
      && (forall row :: row in r.value.value.rows <==> row in df.value.rows && !Excluded(row[k], options, types))
  {
    match df
    case None => Success(None)
    case Some(t) =>
      var kept :- DropTypes(t, options, types);
      assert (exists ty :: ty in types && ty !in options) ==> forall row :: row in kept.rows ==> row in t.rows by {
        if exists ty :: ty in types && ty !in options {
          var k := Locate(t.columns, Cleaning.PersonType).value;
          FilterKeepsExactly(t.rows, Included(k, options, types));
        }
      }
      Success(Some(kept))
  }

  // ---- overlap with the baseline ----

  predicate OnOrBefore(c: Cell, limit: Dates.Date) {
    c.Some? && c.value.Day? && Dates.AtMost(c.value.date, limit)
  }

  function After(k: nat, limit: Dates.Date): Row -> bool {
    row => !OnOrBefore(At(row, k), limit)
  }

  /** `remove_overlap_dates`: keeps the rows dated strictly after `filterDate` (and rows
      without a date), dropping the ones the baseline period already covers. */
  function RemoveOverlapDates(t: Table, filterDate: Dates.Date): (r: Result<Table, Error>)
    requires WellFormed(t)
    ensures r.Success? <==> DateColumn(t, Cleaning.AccessDate).Success?
    ensures r.Success? ==>
      var k := Locate(t.columns, Cleaning.AccessDate).value;
      && WellFormed(r.value)
      && r.value.columns == t.columns
      && KeepsExactly(t.rows, r.value.rows, After(k, filterDate))
      && (forall row :: row in r.value.rows <==> row in t.rows && !OnOrBefore(row[k], filterDate))
      && (forall row: Row :: row in r.value.rows && row[k].Some? && row[k].value.Day? ==> Dates.Before(filterDate, row[k].value.date))
  {
    var _ :- DateColumn(t, Cleaning.AccessDate);
    var k := Locate(t.columns, Cleaning.AccessDate).value;
    Success(SelectRows(t, After(k, filterDate)))
  }

  /** Removing the overlap twice is removing it once. */
  lemma RemoveOverlapIdempotent(t: Table, filterDate: Dates.Date)
    requires WellFormed(t)
    ensures var r := RemoveOverlapDates(t, filterDate);
      r.Success? ==> RemoveOverlapDates(r.value, filterDate) == r
  {
    var r := RemoveOverlapDates(t, filterDate);
    if r.Success? {
      var k := Locate(t.columns, Cleaning.AccessDate).value;
      var once := r.value;
      assert DateColumn(once, Cleaning.AccessDate).Success? by {
        forall j | 0 <= j < |once.rows|
          ensures IsDateCell(once.rows[j][k])
        {
          assert once.rows[j] in t.rows;
          var i :| 0 <= i < |t.rows| && t.rows[i] == once.rows[j];
        }
      }
      Seqs.FilterIdempotent(t.rows, After(k, filterDate));
    }
  }

  // ---- the three filters together ----

  /** A row survives the selected filters: it is not a weekend row when weekends are
      removed, not in the holiday window when holidays are removed, and not of a type the
      user deselected. */
  predicate Wanted(columns: seq<string>, row: Row, noWeekends: bool, noHolidays: bool, options: seq<Value>, types: seq<Value>) {
    && (noWeekends ==> Locate(columns, Cleaning.DayOfWeek).Success? && !WeekendName(At(row, Locate(columns, Cleaning.DayOfWeek).value)))
    && (noHolidays ==> Locate(columns, Cleaning.AccessDate).Success? && !InHoliday(At(row, Locate(columns, Cleaning.AccessDate).value)))
    && ((exists ty :: ty in types && ty !in options) ==>
          Locate(columns, Cleaning.PersonType).Success? && !Excluded(At(row, Locate(columns, Cleaning.PersonType).value), options, types))
  }

  /** What `filter_options` does to one table: the weekend toggle, then the holiday
      toggle, then the person-type selection; the toggles and the selection are the
      values the user picked. */
  function FilterOne(df: Option<Table>, noWeekends: bool, noHolidays: bool, options: seq<Value>, types: seq<Value>): (r: Result<Option<Table>, Error>)
    requires df.Some? ==> WellFormed(df.value)
    ensures df.None? ==> r == Success(None)
    ensures !noWeekends && !noHolidays && (forall ty :: ty in types ==> ty in options) ==> r == Success(df)
    ensures df.Some? && noWeekends && Locate(df.value.columns, Cleaning.DayOfWeek).Failure? ==> r.Failure?
    ensures df.Some? && r.Success? ==>
      && r.value.Some?
      && WellFormed(r.value.value)
      && r.value.value.columns == df.value.columns
  {
    var a :- WeekendStep(df, noWeekends);
    var b :- HolidayStep(a, noHolidays);
    IncludePersonTypeData(b, options, types)
  }

  /** The weekend toggle: when set, `remove_weekend_data`; otherwise nothing. */
  function WeekendStep(df: Option<Table>, noWeekends: bool): (r: Result<Option<Table>, Error>)
    requires df.Some? ==> WellFormed(df.value)
    ensures df.None? ==> r == Success(None)
    ensures df.Some? ==> (r.Success? <==> (noWeekends ==> Locate(df.value.columns, Cleaning.DayOfWeek).Success?))
    ensures df.Some? && r.Success? ==>
      && r.value.Some?
      && WellFormed(r.value.value)
      && r.value.value.columns == df.value.columns
  {
    if noWeekends then RemoveWeekendData(df) else Success(df)
  }

  /** The holiday toggle: when set, `remove_holiday_data`; otherwise nothing. */
  function HolidayStep(df: Option<Table>, noHolidays: bool): (r: Result<Option<Table>, Error>)
    requires df.Some? ==> WellFormed(df.value)
    ensures df.None? ==> r == Success(None)
    ensures df.Some? ==> (r.Success? <==> (noHolidays ==> DateColumn(df.value, Cleaning.AccessDate).Success?))
    ensures df.Some? && r.Success? ==>
      && r.value.Some?
      && WellFormed(r.value.value)
      && r.value.value.columns == df.value.columns
  {
    if noHolidays then RemoveHolidayData(df) else Success(df)
  }

  /** Every row the weekend toggle keeps holds a date or nothing under `Access Date`:
      what the holiday comparison needs. */
  predicate DatesReadable(t: Table, noWeekends: bool) {
    && Locate(t.columns, Cleaning.AccessDate).Success?
    && forall row :: row in t.rows && Wanted(t.columns, row, noWeekends, false, [], []) ==>
         IsDateCell(At(row, Locate(t.columns, Cleaning.AccessDate).value))
  }

  /** `filter_options` on one table raises only for a column a switched-on filter needs:
      `Day Of Week` for weekends, a readable `Access Date` for holidays, and
      `Person Type` when some listed type is deselected. */
  lemma FilterOneSucceeds(t: Table, noWeekends: bool, noHolidays: bool, options: seq<Value>, types: seq<Value>)
    requires WellFormed(t)
    ensures FilterOne(Some(t), noWeekends, noHolidays, options, types).Success? <==>
      && (noWeekends ==> Locate(t.columns, Cleaning.DayOfWeek).Success?)
      && (noHolidays ==> DatesReadable(t, noWeekends))
      && ((exists ty :: ty in types && ty !in options) ==> Locate(t.columns, Cleaning.PersonType).Success?)
  {
    var a := WeekendStep(Some(t), noWeekends);
    if a.Success? {
      var ta := a.value.value;
      assert ta.columns == t.columns;
      assert forall row :: row in ta.rows <==> row in t.rows && Wanted(t.columns, row, noWeekends, false, [], []);
      ReadableAfterWeekend(t, ta, noWeekends);
    }
  }

  /** Reading the dates of the weekend-filtered table succeeds exactly when the
      dates of the rows the weekend toggle keeps are readable. */
  lemma ReadableAfterWeekend(t: Table, ta: Table, noWeekends: bool)
    requires WellFormed(t) && WellFormed(ta) && ta.columns == t.columns
    requires forall row :: row in ta.rows <==> row in t.rows && Wanted(t.columns, row, noWeekends, false, [], [])
    ensures DateColumn(ta, Cleaning.AccessDate).Success? <==> DatesReadable(t, noWeekends)
  {
    if Locate(t.columns, Cleaning.AccessDate).Success? {
      var k := Locate(t.columns, Cleaning.AccessDate).value;
      if DatesReadable(t, noWeekends) {
        forall j | 0 <= j < |ta.rows|
          ensures IsDateCell(ta.rows[j][k])
        {
          assert ta.rows[j] in ta.rows;
        }
      }
      if DateColumn(ta, Cleaning.AccessDate).Success? {
        forall row | row in t.rows && Wanted(t.columns, row, noWeekends, false, [], [])
          ensures IsDateCell(At(row, k))
        {
          var j :| 0 <= j < |ta.rows| && ta.rows[j] == row;
        }
      }
    }
  }

  /** The selected filters together keep exactly the wanted rows. */
  lemma FilterOneKeepsWanted(t: Table, noWeekends: bool, noHolidays: bool, options: seq<Value>, types: seq<Value>)
    requires WellFormed(t)
    ensures var r := FilterOne(Some(t), noWeekends, noHolidays, options, types);
      r.Success? ==> forall row :: row in r.value.value.rows <==>
        row in t.rows && Wanted(t.columns, row, noWeekends, noHolidays, options, types)
  {
    var r := FilterOne(Some(t), noWeekends, noHolidays, options, types);
    if r.Success? {
      var a := WeekendStep(Some(t), noWeekends).value.value;
      var b := HolidayStep(Some(a), noHolidays).value.value;
      var c := r.value.value;
      assert r == IncludePersonTypeData(Some(b), options, types);
      forall row
        ensures row in c.rows <==> row in t.rows && Wanted(t.columns, row, noWeekends, noHolidays, options, types)
      {
        assert row in a.rows <==> row in t.rows && Wanted(t.columns, row, noWeekends, false, [], []);
        assert row in b.rows <==> row in a.rows && Wanted(t.columns, row, false, noHolidays, [], []);
        if exists ty :: ty in types && ty !in options {
          assert row in c.rows <==> row in b.rows && Wanted(t.columns, row, false, false, options, types);
        } else {
          assert c == b;
        }
      }
    }
  }

  /** `filter_options`: the same selection applied to the baseline and, when present,
      the comparison table, each toggle to both tables before the next; the first
      error stops both. */
  function FilterOptions(df: Option<Table>, compare: Option<Table>, noWeekends: bool, noHolidays: bool, options: seq<Value>, types: seq<Value>): (r: Result<(Option<Table>, Option<Table>), Error>)
    requires df.Some? ==> WellFormed(df.value)
    requires compare.Some? ==> WellFormed(compare.value)
    ensures r.Success? <==> FilterOne(df, noWeekends, noHolidays, options, types).Success? && FilterOne(compare, noWeekends, noHolidays, options, types).Success?
    ensures r.Success? ==> r.value.0 == FilterOne(df, noWeekends, noHolidays, options, types).value
    ensures r.Success? ==> r.value.1 == FilterOne(compare, noWeekends, noHolidays, options, types).value
  {
    var one :- Both(WeekendStep(df, noWeekends), WeekendStep(compare, noWeekends));
    var two :- Both(HolidayStep(one.0, noHolidays), HolidayStep(one.1, noHolidays));
    Both(IncludePersonTypeData(two.0, options, types), IncludePersonTypeData(two.1, options, types))
  }

  /** One toggle applied to the baseline and then to the comparison table. */
  function Both(a: Result<Option<Table>, Error>, b: Result<Option<Table>, Error>): (r: Result<(Option<Table>, Option<Table>), Error>)
    ensures r.Success? <==> a.Success? && b.Success?
    ensures r.Success? ==> r.value == (a.value, b.value)
    ensures a.Failure? ==> r == Failure(a.error)
  {
    var x :- a;
    var y :- b;
    Success((x, y))
  }
}

=== FILE: order.dfy ===
/** Orderings and sorting. Python's `sorted` and pandas' sorted categories and sorted
    group keys are all modelled by the insertion sorts below, parameterised by a strict
    total order. */
module Order {

  ghost predicate StrictTotalOrder<T(!new)>(lt: (T, T) -> bool) {
    && (forall a :: !lt(a, a))
    && (forall a, b, c :: lt(a, b) && lt(b, c) ==> lt(a, c))
    && (forall a, b :: a != b ==> lt(a, b) || lt(b, a))
  }

  /** Non-decreasing with respect to `lt`. */
  predicate Sorted<T>(s: seq<T>, lt: (T, T) -> bool) {
    forall i, j :: 0 <= i < j < |s| ==> !lt(s[j], s[i])
  }

  /** Strictly increasing with respect to `lt` (hence also duplicate-free). */
  predicate StrictlySorted<T>(s: seq<T>, lt: (T, T) -> bool) {
    forall i, j :: 0 <= i < j < |s| ==> lt(s[i], s[j])
  }

  function Insert<T(!new)>(x: T, s: seq<T>, lt: (T, T) -> bool): (r: seq<T>)
    requires StrictTotalOrder(lt)
    requires Sorted(s, lt)
    ensures Sorted(r, lt)
    ensures multiset(r) == multiset(s) + multiset{x}
  {
    if |s| == 0 then [x]
    else if !lt(s[0], x) then
      assert forall j :: 0 < j < |s| ==> !lt(s[j], s[0]);
      [x] + s
    else
      var tail := Insert(x, s[1..], lt);
      assert s == [s[0]] + s[1..];
      forall j | 0 <= j < |tail|
        ensures !lt(tail[j], s[0])
      {
        assert tail[j] in multiset(tail);
        if tail[j] != x {
          assert tail[j] in multiset(s[1..]);
          var k :| 0 <= k < |s[1..]| && s[1..][k] == tail[j];
          assert s[k + 1] == tail[j];
        }
      }
      var r := [s[0]] + tail;
      assert forall j :: 0 < j < |r| ==> r[j] == tail[j - 1];
      r
  }

  /** Python `sorted(xs)`: the sorted permutation of `xs`. */
  function Sort<T(!new)>(xs: seq<T>, lt: (T, T) -> bool): (r: seq<T>)
    requires StrictTotalOrder(lt)
    ensures Sorted(r, lt)
    ensures multiset(r) == multiset(xs)
  {
    if |xs| == 0 then []
    else
      assert xs == xs[..|xs| - 1] + [xs[|xs| - 1]];
      Insert(xs[|xs| - 1], Sort(xs[..|xs| - 1], lt), lt)
  }

  function InsertUnique<T(==,!new)>(x: T, s: seq<T>, lt: (T, T) -> bool): (r: seq<T>)
    requires StrictTotalOrder(lt)
    requires StrictlySorted(s, lt)
    ensures StrictlySorted(r, lt)
    ensures forall y :: y in r <==> y == x || y in s
  {
    if |s| == 0 then [x]
    else if s[0] == x then s
    else if lt(x, s[0]) then [x] + s
    else
      var tail := InsertUnique(x, s[1..], lt);
      forall j | 0 <= j < |tail|
        ensures lt(s[0], tail[j])
      {
        assert tail[j] in tail;
        if tail[j] != x {
          var k :| 0 <= k < |s[1..]| && s[1..][k] == tail[j];
          assert s[k + 1] == tail[j];
        }
      }
      var r := [s[0]] + tail;
      assert forall j :: 0 < j < |r| ==> r[j] == tail[j - 1];
      assert forall y :: y in s <==> y == s[0] || y in s[1..];
      r
  }

  /** The distinct elements of `xs` in increasing order (pandas' sorted categories and
      sorted `groupby` keys). */
  function SortedDistinct<T(==,!new)>(xs: seq<T>, lt: (T, T) -> bool): (r: seq<T>)
    requires StrictTotalOrder(lt)
    ensures StrictlySorted(r, lt)
    ensures forall y :: y in r <==> y in xs
  {
    if |xs| == 0 then []
    else
      var n := |xs| - 1;
      assert xs == xs[..n] + [xs[n]];
      InsertUnique(xs[n], SortedDistinct(xs[..n], lt), lt)
  }

  /** A sorted sequence is determined by its multiset: two sorted permutations coincide. */
  lemma {:induction false} SortedUnique<T(!new)>(a: seq<T>, b: seq<T>, lt: (T, T) -> bool)
    requires StrictTotalOrder(lt)
    requires Sorted(a, lt) && Sorted(b, lt)
    requires multiset(a) == multiset(b)
    ensures a == b
  {
    if |a| == 0 {
      assert |multiset(b)| == 0;
    } else {
      assert |b| == |multiset(b)| == |multiset(a)| == |a|;
      assert a[0] in multiset(b);
      assert b[0] in multiset(a);
      assert a[0] == b[0];
      assert a == [a[0]] + a[1..];
      assert b == [b[0]] + b[1..];
      assert multiset(a) == multiset{a[0]} + multiset(a[1..]);
      assert multiset(b) == multiset{b[0]} + multiset(b[1..]);
      assert forall y :: multiset(a[1..])[y] == multiset(b[1..])[y] by {
        forall y
          ensures multiset(a[1..])[y] == multiset(b[1..])[y]
        {
          assert multiset(a)[y] == multiset{a[0]}[y] + multiset(a[1..])[y];
          assert multiset(b)[y] == multiset{b[0]}[y] + multiset(b[1..])[y];
        }
      }
      assert multiset(a[1..]) == multiset(b[1..]);
      SortedUnique(a[1..], b[1..], lt);
    }
  }

  /** Comparing sorted lists compares multisets: `Sort(xs) == base` holds exactly when
      `base` is sorted and a permutation of `xs`. */
  lemma SortEqualIff<T(!new)>(xs: seq<T>, base: seq<T>, lt: (T, T) -> bool)
    requires StrictTotalOrder(lt)
    requires Sorted(base, lt)
    ensures Sort(xs, lt) == base <==> multiset(xs) == multiset(base)
  {
    if multiset(xs) == multiset(base) {
      SortedUnique(Sort(xs, lt), base, lt);
    }
  }
}

=== FILE: seqs.dfy ===
/** Order-preserving sequence operations that stand for pandas row selection:
    boolean-mask filtering, `drop_duplicates` / `unique` (keep the first occurrence). */
module Seqs {

  /** `a` can be obtained from `b` by deleting elements (greedy match from the end). */
  predicate IsSubseq<T(==,!new)>(a: seq<T>, b: seq<T>)
    decreases |b|
  {
    if |a| == 0 then true
    else if |b| == 0 then false
    else if a[|a| - 1] == b[|b| - 1] then IsSubseq(a[..|a| - 1], b[..|b| - 1])
    else IsSubseq(a, b[..|b| - 1])
  }

  /** Keeps, in order, exactly the elements satisfying `p`, with their multiplicity. */
  function Filter<T(==,!new)>(s: seq<T>, p: T -> bool): (r: seq<T>)
    ensures forall x :: x in r <==> x in s && p(x)
    ensures forall x :: multiset(r)[x] == if p(x) then multiset(s)[x] else 0
    ensures IsSubseq(r, s)
    ensures |r| <= |s|
  {
    if |s| == 0 then []
    else
      var rest := Filter(s[..|s| - 1], p);
      var x := s[|s| - 1];
      assert s == s[..|s| - 1] + [x];
      if p(x) then rest + [x]
      else
        assert rest == [] || rest[|rest| - 1] != x by {
          if rest != [] {
            assert rest[|rest| - 1] in rest;
          }
        }
        rest
  }

  /** Filtering twice is filtering once by the conjunction. */
  lemma {:induction false} FilterFilter<T(!new)>(s: seq<T>, p: T -> bool, q: T -> bool, both: T -> bool)
    requires forall x :: both(x) == (p(x) && q(x))
    ensures Filter(Filter(s, p), q) == Filter(s, both)
  {
    if |s| != 0 {
      var x := s[|s| - 1];
      FilterFilter(s[..|s| - 1], p, q, both);
      var inner := Filter(s[..|s| - 1], p);
      if p(x) {
        assert (inner + [x])[..|inner + [x]| - 1] == inner;
      }
    }
  }

  /** A filter that keeps every element changes nothing. */
  lemma {:induction false} FilterAll<T(!new)>(s: seq<T>, p: T -> bool)
    requires forall x :: x in s ==> p(x)
    ensures Filter(s, p) == s
  {
    if |s| != 0 {
      var n := |s| - 1;
      assert s == s[..n] + [s[n]];
      FilterAll(s[..n], p);
    }
  }

  /** Filtering is idempotent. */
  lemma FilterIdempotent<T(!new)>(s: seq<T>, p: T -> bool)
    ensures Filter(Filter(s, p), p) == Filter(s, p)
  {
    FilterAll(Filter(s, p), p);
  }

  predicate NoDup<T(==,!new)>(s: seq<T>) {
    forall i, j :: 0 <= i < j < |s| ==> s[i] != s[j]
  }

  /** An element found at two positions occurs at least twice. */
  lemma TwoOccurrences<T(!new)>(s: seq<T>, x: T, a: nat, b: nat)
    requires a < b < |s| && s[a] == x && s[b] == x
    ensures multiset(s)[x] >= 2
  {
    assert s == s[..b] + s[b..];
    assert s[a] in s[..b];
    assert s[b] in s[b..];
    assert multiset(s) == multiset(s[..b]) + multiset(s[b..]);
  }

  /** Position of the first occurrence of `x` in `s`. */
  function FirstIndex<T(==,!new)>(s: seq<T>, x: T): (k: nat)
    requires x in s
    ensures k < |s| && s[k] == x
    ensures forall j :: 0 <= j < k ==> s[j] != x
  {
    if s[0] == x then 0 else 1 + FirstIndex(s[1..], x)
  }

  /** The first occurrence of `x` in a prefix is its first occurrence in the whole sequence. */
  lemma FirstIndexPrefix<T(!new)>(s: seq<T>, n: nat, x: T)
    requires n <= |s| && x in s[..n]
    ensures FirstIndex(s[..n], x) == FirstIndex(s, x)
  {
    var k := FirstIndex(s[..n], x);
    var k' := FirstIndex(s, x);
    assert s[..n][k] == s[k];
  }

  /** pandas `drop_duplicates(keep='first')` and `Series.unique()`: one copy of each
      distinct element, listed in the order of first occurrence. */
  function Dedup<T(==,!new)>(s: seq<T>): (r: seq<T>)
    ensures NoDup(r)
    ensures forall x :: x in r <==> x in s
    ensures forall i, j :: 0 <= i < j < |r| ==> FirstIndex(s, r[i]) < FirstIndex(s, r[j])
  {
    if |s| == 0 then []
    else
      var n := |s| - 1;
      var x := s[n];
      var rest := Dedup(s[..n]);
      assert s == s[..n] + [x];
      forall i | 0 <= i < |rest|
        ensures FirstIndex(s[..n], rest[i]) == FirstIndex(s, rest[i])
      {
        assert rest[i] in rest;
        FirstIndexPrefix(s, n, rest[i]);
      }
      if x in rest then rest
      else
        assert FirstIndex(s, x) == n;
        var r := rest + [x];
        assert forall i :: 0 <= i < |rest| ==> r[i] == rest[i];
        r
  }

  /** Removing duplicates from a duplicate-free sequence changes nothing. */
  lemma {:induction false} DedupNoDup<T(!new)>(s: seq<T>)
    requires NoDup(s)
    ensures Dedup(s) == s
  {
    if |s| != 0 {
      var n := |s| - 1;
      DedupNoDup(s[..n]);
      assert s[n] !in s[..n];
      assert s == s[..n] + [s[n]];
    }
  }

  /** `drop_duplicates` is idempotent. */
  lemma DedupIdempotent<T(!new)>(s: seq<T>)
    ensures Dedup(Dedup(s)) == Dedup(s)
  {
    DedupNoDup(Dedup(s));
  }
}

=== FILE: strings.dfy ===
/** Python's ordering of `str` values: lexicographic by code point, a proper prefix
    sorting first. (Dafny's own `<` on sequences is the proper-prefix relation.) */
module StringOrder {
  import Order

  predicate Less(a: string, b: string)
    decreases |a|
  {
    if |b| == 0 then false
    else if |a| == 0 then true
    else if a[0] != b[0] then a[0] < b[0]
    else Less(a[1..], b[1..])
  }

  /** The textbook definition: `a` and `b` agree up to position `k`, where `a` ends
      first or has the smaller character. */
  ghost predicate DiffersAt(a: string, b: string, k: nat) {
    && k <= |a| && k <= |b|
    && a[..k] == b[..k]
    && ((k == |a| && k < |b|) || (k < |a| && k < |b| && a[k] < b[k]))
  }

  lemma {:induction false} LessIffDiffersAt(a: string, b: string)
    ensures Less(a, b) <==> exists k: nat :: DiffersAt(a, b, k)
  {
    if |b| == 0 {
    } else if |a| == 0 {
      assert DiffersAt(a, b, 0);
    } else if a[0] != b[0] {
      if a[0] < b[0] {
        assert DiffersAt(a, b, 0);
      }
    } else {
      LessIffDiffersAt(a[1..], b[1..]);
      if Less(a, b) {
        var k: nat :| DiffersAt(a[1..], b[1..], k);
        assert a[..k + 1] == [a[0]] + a[1..][..k];
        assert b[..k + 1] == [b[0]] + b[1..][..k];
        assert DiffersAt(a, b, k + 1);
      }
      if exists k: nat :: DiffersAt(a, b, k) {
        var k: nat :| DiffersAt(a, b, k);
        assert k > 0;
        assert a[1..][..k - 1] == a[..k][1..];
        assert b[1..][..k - 1] == b[..k][1..];
        assert DiffersAt(a[1..], b[1..], k - 1);
      }
    }
  }

  lemma LessIrreflexive(a: string)
    ensures !Less(a, a)
  {
  }

  lemma {:induction false} LessTransitive(a: string, b: string, c: string)
    requires Less(a, b) && Less(b, c)
    ensures Less(a, c)
    decreases |a|
  {
    if |a| != 0 && a[0] == b[0] && b[0] == c[0] {
      LessTransitive(a[1..], b[1..], c[1..]);
    }
  }

  lemma {:induction false} LessTotal(a: string, b: string)
    requires a != b
    ensures Less(a, b) || Less(b, a)
    decreases |a|
  {
    if |a| != 0 && |b| != 0 && a[0] == b[0] {
      assert a == [a[0]] + a[1..];
      assert b == [b[0]] + b[1..];
      LessTotal(a[1..], b[1..]);
    }
  }

  lemma LessIsStrictTotalOrder()
    ensures Order.StrictTotalOrder(Less)
  {
    var lt: (string, string) -> bool := Less;
    forall a
      ensures !lt(a, a)
    {
      LessIrreflexive(a);
    }
    forall a, b, c | lt(a, b) && lt(b, c)
      ensures lt(a, c)
    {
      LessTransitive(a, b, c);
    }
    forall a, b | a != b
      ensures lt(a, b) || lt(b, a)
    {
      LessTotal(a, b);
    }
  }
}

=== FILE: summary.dfy ===
/** The aggregations the dashboard charts read (`main.py`): swipe counts per day, per
    day and source, and the date range and person types of a table. */
module Summary {
  import opened Wrappers
  import Seqs
  import Order
  import StringOrder
  import Dates
  import opened Tables
  import Cleaning

  /** The column the comparison view adds to tell baseline rows from comparison rows. */
  const Source := "Source"

  // ---- grouping by a key ----

  /** The keys of a grouped result, in order. */
  function Keys<K>(g: seq<(K, nat)>): (ks: seq<K>)
    ensures |ks| == |g|
    ensures forall i :: 0 <= i < |g| ==> ks[i] == g[i].0
  {
    seq(|g|, i requires 0 <= i < |g| => g[i].0)
  }

  /** `groupby(key).size()`: one entry per distinct key, in ascending key order, with
      the number of times the key occurs. */
  function GroupSizes<K(==,!new)>(xs: seq<K>, lt: (K, K) -> bool): (g: seq<(K, nat)>)
    requires Order.StrictTotalOrder(lt)
    ensures Order.StrictlySorted(Keys(g), lt)
    ensures forall k :: k in Keys(g) <==> k in xs
    ensures forall i :: 0 <= i < |g| ==> g[i].1 == multiset(xs)[g[i].0] && g[i].1 >= 1
  {
    var keys := Order.SortedDistinct(xs, lt);
    var g := seq(|keys|, i requires 0 <= i < |keys| => (keys[i], multiset(xs)[keys[i]]));
    assert forall i :: 0 <= i < |keys| ==> keys[i] in xs;
    assert Keys(g) == keys;
    g
  }

  /** The sum of the counts. */
  function Total<K>(g: seq<(K, nat)>): nat {
    if |g| == 0 then 0 else g[0].1 + Total(g[1..])
  }

  /** Occurrences in `xs` of each element of `ds`, summed. */
  function CountSum<K(==)>(ds: seq<K>, xs: seq<K>): nat {
    if |ds| == 0 then 0 else multiset(xs)[ds[0]] + CountSum(ds[1..], xs)
  }

  lemma {:induction false} TotalIsCountSum<K>(g: seq<(K, nat)>, ds: seq<K>, xs: seq<K>)
    requires |g| == |ds|
    requires forall i :: 0 <= i < |g| ==> g[i].1 == multiset(xs)[ds[i]]
    ensures Total(g) == CountSum(ds, xs)
  {
    if |g| > 0 {
      TotalIsCountSum(g[1..], ds[1..], xs);
    }
  }

  lemma {:induction false} CountSumSnoc<K(!new)>(ds: seq<K>, xs: seq<K>, x: K)
    requires Seqs.NoDup(ds)
    ensures CountSum(ds, xs + [x]) == CountSum(ds, xs) + (if x in ds then 1 else 0)
  {
    if |ds| > 0 {
      assert Seqs.NoDup(ds[1..]);
      CountSumSnoc(ds[1..], xs, x);
      assert multiset(xs + [x]) == multiset(xs) + multiset{x};
      assert x in ds <==> x == ds[0] || x in ds[1..];
      assert x == ds[0] ==> x !in ds[1..];
    }
  }

  /** Distinct keys covering every element count every element exactly once. */
  lemma {:induction false} CountSumCovers<K(!new)>(ds: seq<K>, xs: seq<K>)
    requires Seqs.NoDup(ds)
    requires forall x :: x in xs ==> x in ds
    ensures CountSum(ds, xs) == |xs|
  {
    if |xs| == 0 {
      CountSumEmpty(ds, xs);
    } else {
      var n := |xs| - 1;
      assert xs == xs[..n] + [xs[n]];
      CountSumCovers(ds, xs[..n]);
      CountSumSnoc(ds, xs[..n], xs[n]);
    }
  }

  lemma {:induction false} CountSumEmpty<K>(ds: seq<K>, xs: seq<K>)
    requires |xs| == 0
    ensures CountSum(ds, xs) == 0
  {
    if |ds| > 0 {
      CountSumEmpty(ds[1..], xs);
    }
  }

  /** Every element lands in exactly one group: the counts add up to the input length. */
  lemma GroupSizesTotal<K(!new)>(xs: seq<K>, lt: (K, K) -> bool)
    requires Order.StrictTotalOrder(lt)
    ensures Total(GroupSizes(xs, lt)) == |xs|
  {
    var g := GroupSizes(xs, lt);
    var ks := Keys(g);
    forall i, j | 0 <= i < j < |ks|
      ensures ks[i] != ks[j]
    {
      assert lt(ks[i], ks[j]);
    }
    TotalIsCountSum(g, ks, xs);
    CountSumCovers(ks, xs);
  }

  // ---- the orders on keys ----

  lemma BeforeIsStrictTotalOrder()
    ensures Order.StrictTotalOrder(Dates.Before)
  {
    var lt: (Dates.Date, Dates.Date) -> bool := Dates.Before;
    assert forall a :: !lt(a, a);
    assert forall a, b, c :: lt(a, b) && lt(b, c) ==> lt(a, c);
    assert forall a, b :: a != b ==> lt(a, b) || lt(b, a);
  }

  /** Date first, then source name. */
  predicate DateSourceLess(a: (Dates.Date, string), b: (Dates.Date, string)) {
    Dates.Before(a.0, b.0) || (a.0 == b.0 && StringOrder.Less(a.1, b.1))
  }

  lemma DateSourceIsStrictTotalOrder()
    ensures Order.StrictTotalOrder(DateSourceLess)
  {
    StringOrder.LessIsStrictTotalOrder();
    var lt: ((Dates.Date, string), (Dates.Date, string)) -> bool := DateSourceLess;
    var sl: (string, string) -> bool := StringOrder.Less;
    forall a
      ensures !lt(a, a)
    {
      assert !sl(a.1, a.1);
    }
    forall a, b, c | lt(a, b) && lt(b, c)
      ensures lt(a, c)
    {
      if a.0 == b.0 && b.0 == c.0 {
        assert sl(a.1, b.1) && sl(b.1, c.1);
      }
    }
    forall a, b | a != b
      ensures lt(a, b) || lt(b, a)
    {
      if a.0 == b.0 {
        assert a.1 != b.1;
        assert sl(a.1, b.1) || sl(b.1, a.1);
      }
    }
  }

  // ---- swipes per day ----

  /** `unique_swipes_per_day(df)`: the number of rows on each date, in date order; rows
      without a date fall out of the grouping. */
  function UniqueSwipesPerDay(t: Table): (r: Result<seq<(Dates.Date, nat)>, Error>)
    requires WellFormed(t)
    ensures r.Success? <==> DateColumn(t, Cleaning.AccessDate).Success?
    ensures r.Success? ==>
      var dates := DateColumn(t, Cleaning.AccessDate).value;
      && Order.StrictlySorted(Keys(r.value), Dates.Before)
      && (forall d :: d in Keys(r.value) <==> Some(d) in dates)
      && (forall i :: 0 <= i < |r.value| ==> r.value[i].1 == multiset(dates)[Some(r.value[i].0)] && r.value[i].1 >= 1)
  {
    var dates :- DateColumn(t, Cleaning.AccessDate);
    BeforeIsStrictTotalOrder();
    PresentCount(dates);
    Success(GroupSizes(Cleaning.Present(dates), Dates.Before))
  }

  /** The number of present values (`count()` on a single column). */
  function CountPresent<T>(s: seq<Option<T>>): nat {
    if |s| == 0 then 0 else CountPresent(s[..|s| - 1]) + (if s[|s| - 1].Some? then 1 else 0)
  }

  /** Every row with a date is counted once, and the rows without a date not at all;
      so on a table without missing cells the counts add up to the number of rows. */
  lemma SwipesCoverRows(t: Table)
    requires WellFormed(t)
    ensures var r := UniqueSwipesPerDay(t);
      r.Success? ==> Total(r.value) == CountPresent(Column(t, Locate(t.columns, Cleaning.AccessDate).value))
    ensures var r := UniqueSwipesPerDay(t);
      r.Success? && NullFree(t) ==> Total(r.value) == |t.rows|
  {
    var r := UniqueSwipesPerDay(t);
    if r.Success? {
      var dates := DateColumn(t, Cleaning.AccessDate).value;
      var k := Locate(t.columns, Cleaning.AccessDate).value;
      var cells := Column(t, k);
      PresentLength(dates);
      SamePresence(dates, cells);
      var present := Cleaning.Present(dates);
      BeforeIsStrictTotalOrder();
      assert r.value == GroupSizes(present, Dates.Before);
      GroupSizesTotal(present, Dates.Before);
      if NullFree(t) {
        forall j | 0 <= j < |dates|
          ensures dates[j].Some?
        {
          assert Complete(t.rows[j]);
        }
        PresentAll(dates);
      }
    }
  }

  /** Dropping the missing values leaves as many values as are present. */
  lemma {:induction false} PresentLength<T(!new)>(s: seq<Option<T>>)
    ensures |Cleaning.Present(s)| == CountPresent(s)
  {
    if |s| > 0 {
      var n := |s| - 1;
      PresentLength(s[..n]);
      assert s == s[..n] + [s[n]];
    }
  }

  /** Two columns with gaps in the same places have as many present values. */
  lemma {:induction false} SamePresence<T, U>(a: seq<Option<T>>, b: seq<Option<U>>)
    requires |a| == |b|
    requires forall j :: 0 <= j < |a| ==> (a[j].Some? <==> b[j].Some?)
    ensures CountPresent(a) == CountPresent(b)
  {
    if |a| > 0 {
      SamePresence(a[..|a| - 1], b[..|b| - 1]);
    }
  }

  /** Dropping the missing values keeps every present value as often as it occurs. */
  lemma {:induction false} PresentCount<T(!new)>(s: seq<Option<T>>)
    ensures forall x :: multiset(Cleaning.Present(s))[x] == multiset(s)[Some(x)]
  {
    if |s| > 0 {
      var n := |s| - 1;
      PresentCount(s[..n]);
      assert s == s[..n] + [s[n]];
      var last := if s[n].Some? then [s[n].value] else [];
      assert Cleaning.Present(s) == Cleaning.Present(s[..n]) + last;
      assert multiset(s) == multiset(s[..n]) + multiset{s[n]};
      assert multiset(Cleaning.Present(s)) == multiset(Cleaning.Present(s[..n])) + multiset(last);
    }
  }

  /** With nothing missing, dropping the missing values keeps everything. */
  lemma {:induction false} PresentAll<T(!new)>(s: seq<Option<T>>)
    requires forall j :: 0 <= j < |s| ==> s[j].Some?
    ensures |Cleaning.Present(s)| == |s|
  {
    if |s| > 0 {
      PresentAll(s[..|s| - 1]);
    }
  }

  /** The (date, source) key of a row, when both are present. */
  function RowKey(dates: seq<Option<Dates.Date>>, sources: seq<Option<string>>, j: nat): Option<(Dates.Date, string)>
    requires j < |dates| && j < |sources|
  {
    if dates[j].Some? && sources[j].Some? then Some((dates[j].value, sources[j].value)) else None
  }

  /** The (date, source) key of every row, missing when either part is. */
  function RowKeys(t: Table, dates: seq<Option<Dates.Date>>, k: nat, sources: seq<Option<string>>): (keys: seq<Option<(Dates.Date, string)>>)
    requires WellFormed(t) && k < |t.columns|
    requires |dates| == |t.rows| && |sources| == |t.rows|
    requires forall j :: 0 <= j < |t.rows| ==> t.rows[j][k].None? || t.rows[j][k].value.Text?
    requires forall j :: 0 <= j < |t.rows| ==> sources[j] == if t.rows[j][k].Some? then Some(t.rows[j][k].value.text) else None
    ensures forall d, s :: Some((d, s)) in keys <==>
      exists j :: 0 <= j < |t.rows| && dates[j] == Some(d) && t.rows[j][k] == Some(Text(s))
  {
    var keys := seq(|t.rows|, j requires 0 <= j < |t.rows| => RowKey(dates, sources, j));
    forall d, s
      ensures Some((d, s)) in keys <==>
        exists j :: 0 <= j < |t.rows| && dates[j] == Some(d) && t.rows[j][k] == Some(Text(s))
    {
      if exists j :: 0 <= j < |t.rows| && dates[j] == Some(d) && t.rows[j][k] == Some(Text(s)) {
        var j :| 0 <= j < |t.rows| && dates[j] == Some(d) && t.rows[j][k] == Some(Text(s));
        assert keys[j] == Some((d, s));
      }
    }
    keys
  }

  /** `unique_swipes_per_day(df, combined=True)`: the number of rows for each (date,
      source) pair, ordered by date and then source; a source that is not text fails. */
  function UniqueSwipesCombined(t: Table): (r: Result<seq<((Dates.Date, string), nat)>, Error>)
    requires WellFormed(t)
    ensures r.Success? <==>
      && DateColumn(t, Cleaning.AccessDate).Success?
      && Locate(t.columns, Source).Success?
      && Cleaning.TextCells(Column(t, Locate(t.columns, Source).value), Source).Success?
    ensures DateColumn(t, Cleaning.AccessDate).Failure? ==> r.Failure?
    ensures Locate(t.columns, Source).Failure? ==> r.Failure?
    ensures r.Success? ==>
      var dates := DateColumn(t, Cleaning.AccessDate).value;
      var k := Locate(t.columns, Source).value;
      && Cleaning.TextCells(Column(t, k), Source).Success?
      && Order.StrictlySorted(Keys(r.value), DateSourceLess)
      && (forall d, s :: (d, s) in Keys(r.value) <==>
            exists j :: 0 <= j < |t.rows| && dates[j] == Some(d) && t.rows[j][k] == Some(Text(s)))
      && (forall i :: 0 <= i < |r.value| ==> r.value[i].1 >= 1)
      && var keys := RowKeys(t, dates, k, Cleaning.TextCells(Column(t, k), Source).value);
         forall i :: 0 <= i < |r.value| ==> r.value[i].1 == multiset(keys)[Some(r.value[i].0)]
  {
    var dates :- DateColumn(t, Cleaning.AccessDate);
    var k :- Locate(t.columns, Source);
    var sources :- Cleaning.TextCells(Column(t, k), Source);
    var keys := RowKeys(t, dates, k, sources);
    DateSourceIsStrictTotalOrder();
    PresentCount(keys);
    Success(GroupSizes(Cleaning.Present(keys), DateSourceLess))
  }

  // ---- the date range and person types ----

  /** The earliest present date, missing when no date is present. */
  function Earliest(ds: seq<Option<Dates.Date>>): (m: Option<Dates.Date>)
    ensures m.None? <==> forall i :: 0 <= i < |ds| ==> ds[i].None?
    ensures m.Some? ==> m in ds
    ensures m.Some? ==> forall i :: 0 <= i < |ds| && ds[i].Some? ==> Dates.AtMost(m.value, ds[i].value)
  {
    if |ds| == 0 then None
    else
      var rest := Earliest(ds[1..]);
      assert forall i :: 1 <= i < |ds| ==> ds[i] == ds[1..][i - 1];
      if ds[0].None? then rest
      else if rest.None? || Dates.AtMost(ds[0].value, rest.value) then ds[0]
      else rest
  }

  /** The latest present date. */
  function Latest(ds: seq<Option<Dates.Date>>): (m: Option<Dates.Date>)
    ensures m.None? <==> forall i :: 0 <= i < |ds| ==> ds[i].None?
    ensures m.Some? ==> m in ds
    ensures m.Some? ==> forall i :: 0 <= i < |ds| && ds[i].Some? ==> Dates.AtMost(ds[i].value, m.value)
  {
    if |ds| == 0 then None
    else
      var rest := Latest(ds[1..]);
      assert forall i :: 1 <= i < |ds| ==> ds[i] == ds[1..][i - 1];
      if ds[0].None? then rest
      else if rest.None? || Dates.AtMost(rest.value, ds[0].value) then ds[0]
      else rest
  }

  datatype Variables = Variables(minDate: Option<Dates.Date>, maxDate: Option<Dates.Date>, personTypes: seq<Cell>)

  /** Some dates are present and some missing. */
  predicate Mixed(dates: seq<Option<Dates.Date>>) {
    (exists j :: 0 <= j < |dates| && dates[j].Some?) && (exists j :: 0 <= j < |dates| && dates[j].None?)
  }

  /** `extract_variables`: the first and last access date and the distinct person types
      in order of first appearance (`unique()` keeps a missing value as one entry).
      `min()` and `max()` on a column of dates put +inf in place of a missing value and
      then compare, so a column mixing dates and missing values is a TypeError; an
      all-missing or empty column gives NaN, here no date. */
  function ExtractVariables(t: Table): (r: Result<Variables, Error>)
    requires WellFormed(t)
    ensures r.Success? <==>
      && DateColumn(t, Cleaning.AccessDate).Success?
      && !Mixed(DateColumn(t, Cleaning.AccessDate).value)
      && Locate(t.columns, Cleaning.PersonType).Success?
    ensures DateColumn(t, Cleaning.AccessDate).Failure? ==> r == Failure(DateColumn(t, Cleaning.AccessDate).error)
    ensures DateColumn(t, Cleaning.AccessDate).Success? && Mixed(DateColumn(t, Cleaning.AccessDate).value) ==>
      r == Failure(NotADate(Cleaning.AccessDate))
    ensures r.Success? ==>
      var dates := DateColumn(t, Cleaning.AccessDate).value;
      var k := Locate(t.columns, Cleaning.PersonType).value;
      && (r.value.minDate.None? <==> forall j :: 0 <= j < |dates| ==> dates[j].None?)
      && (r.value.minDate.None? <==> r.value.maxDate.None?)
      && (r.value.minDate.Some? ==> r.value.minDate in dates && r.value.maxDate in dates)
      && (r.value.minDate.Some? ==> forall j :: 0 <= j < |dates| && dates[j].Some? ==>
            Dates.AtMost(r.value.minDate.value, dates[j].value) && Dates.AtMost(dates[j].value, r.value.maxDate.value))
      && Seqs.NoDup(r.value.personTypes)
      && (forall c :: c in r.value.personTypes <==> exists j :: 0 <= j < |t.rows| && t.rows[j][k] == c)
  {
    var dates :- DateColumn(t, Cleaning.AccessDate);
    if Mixed(dates) then Failure(NotADate(Cleaning.AccessDate)) else
    var k :- Locate(t.columns, Cleaning.PersonType);
    var types := Seqs.Dedup(Column(t, k));
    Success(Variables(Earliest(dates), Latest(dates), types))
  }

  /** The range brackets every counted day. */
  lemma RangeBracketsCounts(t: Table)
    requires WellFormed(t)
    requires ExtractVariables(t).Success?
    ensures UniqueSwipesPerDay(t).Success?
    ensures forall i :: 0 <= i < |UniqueSwipesPerDay(t).value| ==>
      && ExtractVariables(t).value.minDate.Some?
      && Dates.AtMost(ExtractVariables(t).value.minDate.value, UniqueSwipesPerDay(t).value[i].0)
      && Dates.AtMost(UniqueSwipesPerDay(t).value[i].0, ExtractVariables(t).value.maxDate.value)
  {
    var v := ExtractVariables(t).value;
    var c := UniqueSwipesPerDay(t).value;
    var dates := DateColumn(t, Cleaning.AccessDate).value;
    if |c| > 0 {
      assert c[0].0 in Keys(c);
      var j :| 0 <= j < |dates| && dates[j] == Some(c[0].0);
    }
    forall i | 0 <= i < |c|
      ensures Dates.AtMost(v.minDate.value, c[i].0)
      ensures Dates.AtMost(c[i].0, v.maxDate.value)
    {
      assert c[i].0 in Keys(c);
      var j :| 0 <= j < |dates| && dates[j] == Some(c[i].0);
    }
  }
}

=== FILE: tables.dfy ===
/** A pandas DataFrame as the pipeline uses it: an ordered list of column labels and an
    ordered list of rows, each row holding one cell per column. Row index labels are not
    modelled: every table here has the default 0..n-1 index, so dropping "by index" is
    dropping by position. */
module Tables {
  import opened Wrappers
  import Dates
  import Seqs

  datatype Value =
    | Text(text: string)
    | Day(date: Dates.Date)
    | Code(code: int)

  /** `None` is a missing value (NaN / NaT). */
  type Cell = Option<Value>
  type Row = seq<Cell>

  datatype Table = Table(columns: seq<string>, rows: seq<Row>)

  /** The exceptions the modelled pandas calls raise. */
  datatype Error =
    | MissingColumn(name: string)    // KeyError: label not among the columns
    | DuplicateColumn(name: string)  // the label selects several columns, not one Series
    | BadDate(text: string)          // ValueError: text does not match '%d/%m/%Y'
    | NotADate(name: string)         // TypeError: a cell of a date column is not a date
    | NotText(name: string)          // TypeError: a cell of a text column is not text

  predicate WellFormed(t: Table) {
    forall j :: 0 <= j < |t.rows| ==> |t.rows[j]| == |t.columns|
  }

  /** No missing value in the row. */
  predicate Complete(row: Row) {
    forall k :: 0 <= k < |row| ==> row[k].Some?
  }

  predicate NullFree(t: Table) {
    forall j :: 0 <= j < |t.rows| ==> Complete(t.rows[j])
  }

  /** `after` is `before` with exactly the rows failing `keep` deleted: same order, and
      every kept row with its original multiplicity. */
  ghost predicate KeepsExactly(before: seq<Row>, after: seq<Row>, keep: Row -> bool) {
    && Seqs.IsSubseq(after, before)
    && (forall row :: multiset(after)[row] == if keep(row) then multiset(before)[row] else 0)
  }

  lemma FilterKeepsExactly(rows: seq<Row>, keep: Row -> bool)
    ensures KeepsExactly(rows, Seqs.Filter(rows, keep), keep)
  {
  }

  /** `df[name]` as a single column: the label must occur exactly once. */
  function Locate(columns: seq<string>, name: string): (r: Result<nat, Error>)
    ensures r.Success? <==> multiset(columns)[name] == 1
    ensures r.Success? ==> r.value < |columns| && columns[r.value] == name
    ensures r.Failure? ==> r.error == (if name in columns then DuplicateColumn(name) else MissingColumn(name))
  {
    if name !in columns then Failure(MissingColumn(name))
    else if multiset(columns)[name] > 1 then Failure(DuplicateColumn(name))
    else Success(Seqs.FirstIndex(columns, name))
  }

  function Column(t: Table, k: nat): (c: seq<Cell>)
    requires WellFormed(t) && k < |t.columns|
    ensures |c| == |t.rows|
    ensures forall j :: 0 <= j < |c| ==> c[j] == t.rows[j][k]
  {
    seq(|t.rows|, j requires 0 <= j < |t.rows| => t.rows[j][k])
  }

  /** `df[name] = values`: overwrites every column labelled `name`, or appends a new
      last column when there is none. */
  function SetColumn(t: Table, name: string, values: seq<Cell>): (r: Table)
    requires WellFormed(t) && |values| == |t.rows|
    ensures WellFormed(r) && |r.rows| == |t.rows|
    ensures r.columns == if name in t.columns then t.columns else t.columns + [name]
    ensures forall j, k :: 0 <= j < |r.rows| && 0 <= k < |r.columns| ==>
      r.rows[j][k] == if r.columns[k] == name then values[j] else t.rows[j][k]
  {
    if name in t.columns then
      Table(t.columns, seq(|t.rows|, j requires 0 <= j < |t.rows| =>
        seq(|t.columns|, k requires 0 <= k < |t.columns| =>
          if t.columns[k] == name then values[j] else t.rows[j][k])))
    else
      Table(t.columns + [name], seq(|t.rows|, j requires 0 <= j < |t.rows| => t.rows[j] + [values[j]]))
  }

  /** Positions, in increasing order, of the columns whose label is not in `labels`. */
  function Kept(columns: seq<string>, labels: set<string>): (ks: seq<nat>)
    ensures forall m :: 0 <= m < |ks| ==> ks[m] < |columns| && columns[ks[m]] !in labels
    ensures forall k :: 0 <= k < |columns| && columns[k] !in labels ==> k in ks
    ensures forall m, n :: 0 <= m < n < |ks| ==> ks[m] < ks[n]
  {
    if |columns| == 0 then []
    else
      var last := |columns| - 1;
      var ks := Kept(columns[..last], labels);
      if columns[last] in labels then ks else ks + [last]
  }

  /** The cells of `row` at positions `ks`, in that order. */
  function Project<T>(row: seq<T>, ks: seq<nat>): (p: seq<T>)
    requires forall m :: 0 <= m < |ks| ==> ks[m] < |row|
    ensures |p| == |ks|
    ensures forall m :: 0 <= m < |ks| ==> p[m] == row[ks[m]]
  {
    seq(|ks|, m requires 0 <= m < |ks| => row[ks[m]])
  }

  /** `df.drop(columns=labels)` for labels known to be present: removes every column
      whose label is in `labels` and keeps the rest, with their cells, in order. */
  function DropColumns(t: Table, labels: set<string>): (r: Table)
    requires WellFormed(t)
    ensures WellFormed(r) && |r.rows| == |t.rows|
    ensures forall c :: c in r.columns <==> c in t.columns && c !in labels
    ensures r.columns == Project(t.columns, Kept(t.columns, labels))
    ensures forall j :: 0 <= j < |r.rows| ==> r.rows[j] == Project(t.rows[j], Kept(t.columns, labels))
    ensures NullFree(t) ==> NullFree(r)
  {
    var ks := Kept(t.columns, labels);
    var columns := Project(t.columns, ks);
    var rows := seq(|t.rows|, j requires 0 <= j < |t.rows| => Project(t.rows[j], ks));
    KeptLabels(t.columns, labels);
    assert NullFree(t) ==> NullFree(Table(columns, rows)) by {
      if NullFree(t) {
        forall j | 0 <= j < |rows|
          ensures Complete(rows[j])
        {
          assert Complete(t.rows[j]);
        }
      }
    }
    Table(columns, rows)
  }

  lemma KeptLabels(columns: seq<string>, labels: set<string>)
    ensures forall c :: c in Project(columns, Kept(columns, labels)) <==> c in columns && c !in labels
  {
    var ks := Kept(columns, labels);
    var p := Project(columns, ks);
    forall c | c in columns && c !in labels
      ensures c in p
    {
      var k :| 0 <= k < |columns| && columns[k] == c;
      var m :| 0 <= m < |ks| && ks[m] == k;
      assert p[m] == c;
    }
  }

  function Labels(names: seq<string>): (ls: set<string>)
    ensures forall n :: n in ls <==> n in names
  {
    set n | n in names
  }

  /** `df.drop(columns=names)` with pandas' default `errors='raise'`: a KeyError names
      the first label that is not a column. */
  function DropNamed(t: Table, names: seq<string>): (r: Result<Table, Error>)
    requires WellFormed(t)
    ensures r.Success? <==> forall n :: n in names ==> n in t.columns
    ensures r.Failure? ==> exists n :: n in names && n !in t.columns && r.error == MissingColumn(n)
    ensures r.Success? ==> r.value == DropColumns(t, Labels(names))
  {
    if forall n :: n in names ==> n in t.columns then Success(DropColumns(t, Labels(names)))
    else
      var k := FirstMissing(t.columns, names);
      Failure(MissingColumn(names[k]))
  }

  function FirstMissing(columns: seq<string>, names: seq<string>): (k: nat)
    requires exists n :: n in names && n !in columns
    ensures k < |names| && names[k] !in columns
    ensures forall i :: 0 <= i < k ==> names[i] in columns
  {
    if names[0] !in columns then 0 else 1 + FirstMissing(columns, names[1..])
  }

  /** `df.dropna()`: drops every row that has a missing cell. */
  function DropNa(t: Table): (r: Table)
    requires WellFormed(t)
    ensures WellFormed(r) && NullFree(r)
    ensures r.columns == t.columns
    ensures KeepsExactly(t.rows, r.rows, Complete)
    ensures |r.rows| <= |t.rows|
    ensures (forall j :: 0 <= j < |t.rows| ==> !Complete(t.rows[j])) ==> r.rows == []
  {
    var rows := Seqs.Filter(t.rows, Complete);
    assert forall j :: 0 <= j < |rows| ==> rows[j] in rows;
    assert (forall j :: 0 <= j < |t.rows| ==> !Complete(t.rows[j])) ==> rows == [] by {
      if rows != [] {
        assert rows[0] in t.rows;
      }
    }
    Table(t.columns, rows)
  }

  /** Boolean-mask selection `df[mask]`, or equivalently dropping the complement's index. */
  function SelectRows(t: Table, keep: Row -> bool): (r: Table)
    requires WellFormed(t)
    ensures WellFormed(r) && r.columns == t.columns
    ensures KeepsExactly(t.rows, r.rows, keep)
    ensures forall row :: row in r.rows <==> row in t.rows && keep(row)
    ensures NullFree(t) ==> NullFree(r)
  {
    var rows := Seqs.Filter(t.rows, keep);
    assert forall j :: 0 <= j < |rows| ==> rows[j] in t.rows;
    Table(t.columns, rows)
  }

  /** The cells of a date column, each a date or missing; any other cell is a TypeError
      as soon as pandas compares, sorts or aggregates the column. */
  function DateColumn(t: Table, name: string): (r: Result<seq<Option<Dates.Date>>, Error>)
    requires WellFormed(t)
    ensures r.Success? ==> Locate(t.columns, name).Success?
    ensures r.Success? ==> |r.value| == |t.rows|
    ensures r.Success? ==> forall j :: 0 <= j < |t.rows| ==>
      t.rows[j][Locate(t.columns, name).value] == (if r.value[j].Some? then Some(Day(r.value[j].value)) else None)
    ensures Locate(t.columns, name).Success? ==>
      (r.Success? <==> forall j :: 0 <= j < |t.rows| ==> IsDateCell(t.rows[j][Locate(t.columns, name).value]))
  {
    var k :- Locate(t.columns, name);
    var cells := Column(t, k);
    if forall j :: 0 <= j < |cells| ==> IsDateCell(cells[j]) then
      Success(seq(|cells|, j requires 0 <= j < |cells| => if cells[j].Some? then Some(cells[j].value.date) else None))
    else Failure(NotADate(name))
  }

  predicate IsDateCell(c: Cell) {
    c.None? || c.value.Day?
  }

  // ---- where a cell came from ----

  /** `cell` is the cell of `source` (laid out under `sourceColumns`) in some column
      labelled `name`. */
  predicate CellFrom(sourceColumns: seq<string>, source: Row, name: string, cell: Cell) {
    exists k :: 0 <= k < |sourceColumns| && k < |source| && sourceColumns[k] == name && source[k] == cell
  }

  /** Every cell of `row`, laid out under `columns`, whose label is not in `skip` is a
      cell of `source` under the same label: nothing but the skipped columns was
      rewritten. */
  predicate RowFrom(sourceColumns: seq<string>, source: Row, columns: seq<string>, row: Row, skip: set<string>) {
    forall m :: 0 <= m < |columns| && m < |row| && columns[m] !in skip ==> CellFrom(sourceColumns, source, columns[m], row[m])
  }

  /** Dropping columns rewrites no cell. */
  lemma DropRowFrom(t: Table, labels: set<string>, j: nat)
    requires WellFormed(t) && j < |t.rows|
    ensures RowFrom(t.columns, t.rows[j], DropColumns(t, labels).columns, DropColumns(t, labels).rows[j], {})
  {
    var r := DropColumns(t, labels);
    var ks := Kept(t.columns, labels);
    forall m | 0 <= m < |r.columns|
      ensures CellFrom(t.columns, t.rows[j], r.columns[m], r.rows[j][m])
    {
      assert t.columns[ks[m]] == r.columns[m] && t.rows[j][ks[m]] == r.rows[j][m];
    }
  }

  /** Provenance composes: what `b` took from `a` and `row` took from `b`, `row` took
      from `a`, except for the columns rewritten at either step. */
  lemma RowFromTrans(aColumns: seq<string>, a: Row, bColumns: seq<string>, b: Row, columns: seq<string>, row: Row, s1: set<string>, s2: set<string>)
    requires RowFrom(bColumns, b, columns, row, s1)
    requires RowFrom(aColumns, a, bColumns, b, s2)
    ensures RowFrom(aColumns, a, columns, row, s1 + s2)
  {
    forall m | 0 <= m < |columns| && m < |row| && columns[m] !in s1 + s2
      ensures CellFrom(aColumns, a, columns[m], row[m])
    {
      var k :| 0 <= k < |bColumns| && k < |b| && bColumns[k] == columns[m] && b[k] == row[m];
      assert CellFrom(aColumns, a, bColumns[k], b[k]);
    }
  }
}

=== FILE: upload.dfy ===
/** The comparison upload (`upload_data` in `main.py`): classify the file by its name's
    extension, then clean and validate the table it holds against the baseline headers.
    Reading the file is outside the model: the upload carries the table already read. */
module Upload {
  import opened Wrappers
  import opened Tables
  import Order
  import StringOrder
  import Cleaning

  /** `name.split('.')[-1]`: the text after the last dot, or the whole name when it has
      none. */
  function Extension(name: string): (ext: string)
    ensures '.' !in ext
    ensures |ext| <= |name| && ext == name[|name| - |ext|..]
    ensures |ext| < |name| ==> name[|name| - |ext| - 1] == '.'
    ensures |ext| == |name| <==> '.' !in name
  {
    if |name| == 0 then ""
    else
      var n := |name| - 1;
      if name[n] == '.' then ""
      else
        var ext := Extension(name[..n]) + [name[n]];
        assert '.' in name[..n] ==> '.' in name;
        assert '.' in name ==> '.' in name[..n] by {
          if '.' in name {
            var i :| 0 <= i < |name| && name[i] == '.';
            assert name[..n][i] == '.';
          }
        }
        ext
  }

  /** Whatever precedes the last dot, the extension is what follows it. */
  lemma {:induction false} ExtensionAfterLastDot(stem: string, ext: string)
    requires '.' !in ext
    ensures Extension(stem + "." + ext) == ext
  {
    var name := stem + "." + ext;
    if |ext| > 0 {
      var n := |ext| - 1;
      assert name[..|name| - 1] == stem + "." + ext[..n];
      ExtensionAfterLastDot(stem, ext[..n]);
      assert ext == ext[..n] + [ext[n]];
    }
  }

  datatype FileKind = Csv | Xlsx | Unsupported

  /** Only the exact, lower-case `csv` and `xlsx` extensions are read. */
  function Classify(name: string): (k: FileKind)
    ensures k == Csv <==> Extension(name) == "csv"
    ensures k == Xlsx <==> Extension(name) == "xlsx"
  {
    var ext := Extension(name);
    if ext == "csv" then Csv
    else if ext == "xlsx" then Xlsx
    else Unsupported
  }

  /** Whatever the stem, `.csv` and `.xlsx` names are read. */
  lemma ClassifyAccepted(stem: string)
    ensures Classify(stem + ".csv") == Csv
    ensures Classify(stem + ".xlsx") == Xlsx
  {
    assert stem + ".csv" == stem + "." + "csv";
    ExtensionAfterLastDot(stem, "csv");
    assert stem + ".xlsx" == stem + "." + "xlsx";
    ExtensionAfterLastDot(stem, "xlsx");
  }

  /** Only the last extension counts and it must match exactly: anything else, upper
      case `CSV` or `xls` included, is rejected whatever the stem. */
  lemma RejectedExtension(stem: string, ext: string)
    requires '.' !in ext && ext != "csv" && ext != "xlsx"
    ensures Classify(stem + "." + ext) == Unsupported
  {
    ExtensionAfterLastDot(stem, ext);
  }

  /** An uploaded file: its name and the table read from it. */
  datatype File = File(name: string, contents: Table)

  /** `upload_data`: nothing uploaded or an unsupported extension gives no table;
      otherwise the table goes through the cleaning pipeline against the baseline headers,
      and only the cleaned table (or `None` when incompatible) comes back. */
  function UploadData(upload: Option<File>, baseline: Option<seq<string>>): (r: Result<Option<Table>, Error>)
    requires upload.Some? ==> WellFormed(upload.value.contents)
    ensures upload.None? ==> r == Success(None)
    ensures upload.Some? && Classify(upload.value.name) == Unsupported ==> r == Success(None)
    ensures upload.Some? && Classify(upload.value.name) != Unsupported ==>
      (r.Success? <==> Cleaning.CleanAndValidate(upload.value.contents, baseline).Success?)
    ensures r.Success? && r.value.Some? ==>
      && upload.Some?
      && Classify(upload.value.name) != Unsupported
      && Cleaning.Clean(r.value.value)
    ensures upload.Some? && Classify(upload.value.name) != Unsupported && r.Success? ==>
      r.value == Cleaning.CleanAndValidate(upload.value.contents, baseline).value.0
    ensures upload.Some? && baseline.Some? && Order.Sorted(baseline.value, StringOrder.Less) && Classify(upload.value.name) != Unsupported ==>
      (r == Success(None) <==> multiset(Cleaning.Gated(upload.value.contents).columns) != multiset(baseline.value))
  {
    match upload
    case None => Success(None)
    case Some(file) =>
      if Classify(file.name) == Unsupported then Success(None)
      else
        var cleaned :- Cleaning.CleanAndValidate(file.contents, baseline);
        Success(cleaned.0)
  }
}

=== FILE: wrappers.dfy ===
/** Failure-compatible result types shared by every stage of the model.
    `None` of `Option` doubles as pandas' missing value (NaN / NaT). */
module Wrappers {

  datatype Option<+T> = None | Some(value: T) {
    predicate IsFailure() {
      None?
    }

    function PropagateFailure<U>(): Option<U>
      requires None?
    {
      None
    }

    function Extract(): T
      requires Some?
    {
      value
    }
  }

  /** `Failure` stands for a Python exception escaping the modelled function. */
  datatype Result<+R, +E> = Success(value: R) | Failure(error: E) {
    predicate IsFailure() {
      Failure?
    }

    function PropagateFailure<U>(): Result<U, E>
      requires Failure?
    {
      Failure(error)
    }

    function Extract(): R
      requires Success?
    {
      value
    }
  }
}
